=== FILE: README.md ===
# Portfolio site: a verified model

This project models the core of a personal portfolio site in Dafny. The backend is a FastAPI service over MongoDB; the frontend is React. The model covers:

- **RequestUtils** (`backend/utils.py`): how a request's client address is taken from `X-Forwarded-For`, then `X-Real-IP`, then the socket peer; the `User-Agent` lookup; and how uploaded file names are sanitized.
- **Models** (`backend/models.py`): the message-status and event-type enumerations with their wire names; the contact-form field limits; the creation defaults of messages, events and tokens; and the portfolio document.
- **Database** (`backend/database.py`): the collections are ordered sequences held in one immutable `Db` value. It covers:
  - insertion;
  - the newest-first paged message listing;
  - the status update and what it reports;
  - the windowed analytics statistics (counts, the `$group` by section, the ten most recent events);
  - the single portfolio document, replaced with upsert;
  - admin lookup and last-login stamping.
- **Server** (`backend/server.py`): every `/api` route as a function from a state (the database plus the stored résumé) to a new state and an HTTP response. It covers the bearer-token guard, the analytics event each public route records, and the error status of each failure.
- **AdminPanel** (`frontend/src/components/AdminPanel.jsx`): the admin screen's state as a record. It includes:
  - token verification on mount;
  - login and logout;
  - the all-or-nothing dashboard load;
  - the status buttons offered per message;
  - which screen is rendered;
  - the summed "Section Views" card.
- **DesignSelector** (`frontend/src/components/DesignSelector.jsx`): the four design options, the lookup with its Creative Tech fallback, the preview panel, and the portfolio fetch.
- **Sequences** and **Wrappers**: generic support for these modules. Sequences provides a stable descending insertion sort, skip/limit paging and subsequences; Wrappers provides `Option` and `Result`.

Some things the code depends on are passed in as function parameters. The contracts hold for any behaviour the parameters might have. The e-mail check of contact messages runs at every point where the code builds or answers a `ContactMessage`: three times when a message is submitted and twice when messages are listed. The portfolio's `PersonalInfo.email` is not checked by the model (see "Left out"). The parameters are:

- JWT verification, password hashing and checking, and token creation (the `auth` module is not part of this model);
- e-mail syntax (`EmailStr`) and the Unicode class `\w` of Python's `re`;
- clocks and generated ids, which arrive as `Stamp` values.

Timestamps are integers in microseconds. A window of `days` days reaches back `days * 86_400_000_000` from `now`.

The admin dashboard loads analytics and messages with `Promise.all`. If either request fails, neither result is shown; the earlier contents stay (`AdminPanel.FinishDashboardLoad`).

## Model

| member | source | states |
|---|---|---|
| RequestUtils.HeaderGet | backend/utils.py:10-17 | a header lookup is absent exactly when no header has that name, and otherwise returns the value of the first header with it |
| RequestUtils.FirstHeader | backend/utils.py:10 | the index returned is a header with the name, and no earlier header has it |
| RequestUtils.FirstEntry | backend/utils.py:13 | the first comma-separated entry is a comma-free prefix, followed by a comma when it is not the whole value |
| RequestUtils.Truthy | backend/utils.py:11 | a header value counts as present only when it exists and is not the empty string, as Python's truthiness |
| RequestUtils.IsSpace | backend/utils.py:13 | the characters `str.strip()` removes: Python's `isspace` set |
| RequestUtils.TrimStart | backend/utils.py:13 | leading-whitespace removal drops only whitespace (Python's `isspace` set) and stops at a non-space character |
| RequestUtils.TrimEnd | backend/utils.py:13 | trailing-whitespace removal drops only whitespace and stops at a non-space character |
| RequestUtils.Strip | backend/utils.py:13 | `strip()` returns a slice of its input whose two ends are not whitespace |
| RequestUtils.StripRemovesOnlySpace | backend/utils.py:13 | everything `strip()` removes, before and after the kept slice, is whitespace |
| RequestUtils.StripIdempotent | backend/utils.py:13 | stripping twice gives the same result as stripping once |
| RequestUtils.GetClientIp | backend/utils.py:7-24 | a non-empty `X-Forwarded-For` wins with its stripped first entry; otherwise a non-empty `X-Real-IP`; otherwise the client host (possibly none) |
| RequestUtils.GetUserAgent | backend/utils.py:26-28 | the user agent is the value of the first `User-Agent` header, the same lookup as every other header, and is absent exactly when there is no such header |
| RequestUtils.ForwardedAddressIsOneEntry | backend/utils.py:11-13 | the address taken from a forwarded chain is one entry of that header: no comma, no surrounding whitespace, and the header's own text from where the first entry's leading whitespace ends |
| RequestUtils.EntryIsSlice | backend/utils.py:13 | `split(",")[0].strip()` of a header value is a comma-free, whitespace-trimmed slice of that value |
| RequestUtils.ClientIpSources | backend/utils.py:7-24 | no address is reported exactly when both proxy headers are empty or missing and the client has no host; a reported address comes from one of the three sources |
| RequestUtils.FirstEntryIgnoresLaterHops | backend/utils.py:12-13 | appending a further proxy hop to a non-empty forwarded chain leaves the first entry unchanged |
| RequestUtils.ClientIpStableUnderProxyHop | backend/utils.py:10-13 | the client address is unchanged when a proxy appends its hop to the forwarded header |
| RequestUtils.HopAppendedGet | backend/utils.py:10 | after a hop is appended, the lookup sees the extended chain |
| RequestUtils.BlankForwardedYieldsEmptyAddress | backend/utils.py:11-13 | a forwarded header of only a space is truthy, so it hides `X-Real-IP` and yields the empty address |
| RequestUtils.KeepFilenameChars | backend/utils.py:34 | the filter keeps only word characters, `-`, `_` and `.`, and never lengthens the name |
| RequestUtils.IsFilenameChar | backend/utils.py:34 | the characters the `[^\w\-_\.]` class does not remove: word characters, `-`, `_` and `.` |
| RequestUtils.SanitizeFilename | backend/utils.py:30-35 | a sanitized name holds only allowed characters and is at most 255 characters long |
| RequestUtils.KeepCleanUnchanged | backend/utils.py:34 | a name made only of allowed characters passes the filter unchanged |
| RequestUtils.KeepIsSubsequence | backend/utils.py:34 | the filter only deletes characters and never reorders or invents any |
| RequestUtils.KeepCountsAllowed | backend/utils.py:34 | the filtered length is the original length minus the number of rejected characters |
| RequestUtils.CountRejected | backend/utils.py:34 | no character is rejected exactly when the name is already clean |
| RequestUtils.SanitizeIsSubsequence | backend/utils.py:34-35 | the sanitized name is a subsequence of the original and exactly the first min(255, kept) kept characters |
| RequestUtils.SanitizeCleanUnchanged | backend/utils.py:30-35 | a clean name of at most 255 characters is left as it is |
| RequestUtils.SanitizeIdempotent | backend/utils.py:30-35 | sanitizing twice gives the same result as sanitizing once |
| Models.ParseStatus | backend/models.py:8-11 | a parsed status has exactly the given wire name |
| Models.StatusName | backend/models.py:8-11 | the wire names of the three statuses |
| Models.StatusRoundTrip | backend/models.py:8-11 | every status parses back from its name; there are exactly three statuses, with distinct names |
| Models.ParseEventType | backend/models.py:13-18 | a parsed event type has exactly the given wire name |
| Models.EventTypeName | backend/models.py:13-18 | the wire names of the five event types |
| Models.EventTypeRoundTrip | backend/models.py:13-18 | every event type parses back from its name; there are exactly five, with distinct names |
| Models.Within | backend/models.py:31-35 | the inclusive `min_length`/`max_length` bounds of a field |
| Models.ValidSubmission | backend/models.py:31-35 | a form is acceptable when name, subject and message are within their bounds and the address normalises |
| Models.ValidateSubmission | backend/models.py:31-35 | a contact form is accepted exactly when name (2-100), e-mail, subject (5-200) and message (10-2000) are all valid; an accepted form carries the normalised e-mail and every other field unchanged; a rejection lists exactly the failing fields |
| Models.TooShortSubmissionRejected | backend/models.py:31-35 | a form with one-letter name, invalid e-mail, two-letter subject and five-letter message is rejected for name, subject and message |
| Models.NewContactMessage | backend/models.py:21-29 | a new message is unread, copies the form fields, and carries the given id, time and client address |
| Models.RevalidateMessage | backend/models.py:21-29 | rebuilding a message as a `ContactMessage` fails exactly when its address is rejected, and otherwise replaces only the address, by its normalised form |
| Models.RevalidateMessages | backend/database.py:29 | rebuilding a list fails exactly when some address in it is rejected, and otherwise rebuilds every message in place, keeping length and order |
| Models.FixedPointsRevalidate | backend/database.py:29 | messages whose addresses the check accepts unchanged are rebuilt as they are |
| Models.CheckTwice | backend/models.py:24 | an address survives two checks, the second on the first one's output, exactly when both accept it, and then ends as the second one's output |
| Models.SecondRevalidation | backend/server.py:119 | checking a rebuilt list's addresses again amounts to checking each original address twice |
| Models.ApplyUpdate | backend/models.py:37-38 | an update sets the status and nothing else |
| Models.UpdateTouchesOnlyStatus | backend/models.py:37-38 | applying the same update twice equals applying it once, and an update is a no-op exactly when the status is already set |
| Models.NewAnalyticsEvent | backend/models.py:41-51 | a new event copies type and section from the request body and carries the given id, time, address and agent |
| Models.ParsePortfolio | backend/models.py:97-102 | a stored document parses exactly when all five parts are present |
| Models.PortfolioToDocument | backend/database.py:126-130 | `.dict()` of a portfolio: a document with all five parts present |
| Models.PortfolioDocumentRoundTrip | backend/models.py:97-102 | a stored portfolio parses back to itself |
| Models.NewAdminToken | backend/models.py:116-119 | an issued token is of type "bearer" and carries the given token and lifetime |
| Database.CreateContactMessage | backend/database.py:16-20 | inserting appends the message and leaves the other collections alone |
| Database.NewestFirst | backend/database.py:27 | messages sorted by timestamp descending are a permutation of the collection |
| Database.MessagePage | backend/database.py:27-28 | the cursor's page: a negative skip or limit fails; otherwise it has min(limit, remaining after skip) messages, newest first, all drawn from the collection |
| Database.PageIsRunAfterSkip | backend/database.py:27-28 | a page is the consecutive run of the sorted collection that starts at `skip` |
| Database.MessagePagesConcatenate | backend/database.py:27-28 | two adjacent pages together equal the page of their combined size |
| Database.GetContactMessages | backend/database.py:25-33 | a negative skip or limit fails; otherwise the listing fails exactly when the check rejects an address on the cursor's page, and else it is that page with every address normalised, still min(limit, remaining after skip) messages, newest first |
| Database.ValidStoredAddressesReadBack | backend/database.py:25-33 | when every stored address is one the check accepts unchanged, the listing is exactly the cursor's page |
| Database.FindMessage | backend/database.py:36-37 | the match filter `{"id": id}` finds the first message with that id, or reports that none has it |
| Database.UpdateOneMessage | backend/database.py:36-39 | `update_one` with `$set` changes the status of the first matching message only, and counts matched and modified documents |
| Database.UpdateContactMessage | backend/database.py:34-40 | as written, success is reported exactly when a message matched and its status differed |
| Database.UpdateContactMessageFound | backend/database.py:34-40 | as corrected, success is reported exactly when a message with the id exists |
| Database.SameStatusUpdateReportsNotModified | backend/database.py:40 | setting a message's current status reports failure as written but success as corrected, and leaves the database unchanged |
| Database.CreateAnalyticsEvent | backend/database.py:46-49 | recording appends the event and leaves the other collections alone |
| Database.Cutoff | backend/database.py:56 | `utcnow() - timedelta(days=days)` in microseconds |
| Database.Matches | backend/database.py:59-62 | an event matches a `count_documents` filter when its type is in the `$in` set and its time is at or after the `$gte` cutoff |
| Database.CountMatching | backend/database.py:59-62 | a `count_documents` count is at most the collection size |
| Database.CountExtremes | backend/database.py:59-62 | a count is zero exactly when no event matches, and the full size exactly when every event matches |
| Database.CountMessagesSince | backend/database.py:90-92 | the contact-submission count is at most the number of messages |
| Database.CountMessagesAppend | backend/database.py:90-92 | storing one more message raises the count by one exactly when its time is inside the window |
| Database.MessageCountExtremes | backend/database.py:90-92 | the contact-submission count is zero exactly when every message is older than the cutoff, and all messages exactly when none is |
| Database.CountMonotone | backend/database.py:59-62 | widening the set of event types never lowers a count |
| Database.CountDisjointUnion | backend/database.py:59-62 | counting events of two disjoint type sets equals the sum of the two counts |
| Database.CountAppend | backend/database.py:59-62 | a newly inserted event raises each count by one exactly when the event matches |
| Database.AbsentKeyCountsZero | backend/database.py:70-73 | a key with no group has count zero |
| Database.AddToGroups | backend/database.py:70-73 | adding one document to the `$group` result raises its key's count by one, keeps keys distinct and counts positive, and leaves other keys alone |
| Database.CountSection | backend/database.py:66-69 | the section views carrying a given section never exceed all section views in the window |
| Database.GroupSections | backend/database.py:65-75 | the grouping has distinct keys and positive counts, each key's count is its number of in-window section views, and the counts sum to all section views |
| Database.SectionViewsAsWritten | backend/database.py:76 | turning the groups into a string-keyed mapping fails exactly when a null key is present; otherwise it keeps every count |
| Database.NamedSections | backend/database.py:76 | the corrected mapping lists each named section once with its count; together with the null group it accounts for every section view |
| Database.NullGroupListed | backend/database.py:70-76 | a positive count for the null key occurs exactly when the null key is among the groups |
| Database.InWindow | backend/database.py:79-80 | the window filter keeps exactly the events at or after the cutoff |
| Database.RecentEvents | backend/database.py:79-81 | recent events are the newest in-window events, at most ten, in descending time order, drawn from the collection |
| Database.RecentEventsAreNewest | backend/database.py:79-81 | every in-window event is either listed, or the list already holds ten events, none older than it |
| Database.ToActivity | backend/database.py:83-87 | an activity entry copies the event's type, section and timestamp |
| Database.ActivitiesOf | backend/database.py:83-87 | the activity list maps each recent event in order |
| Database.RecentActivity | backend/database.py:79-87 | recent activity has as many entries as the window holds, capped at ten, all inside the window, newest first |
| Database.RecentActivityOfRecentEvents | backend/database.py:79-87 | entry by entry, recent activity is the event type, section and time of the corresponding newest in-window event |
| Database.GetAnalyticsStatsAsWritten | backend/database.py:54-106 | as written, the statistics fail exactly when an in-window section view has no section; otherwise their section breakdown sums to all section views, and the statistics are exactly the corrected ones |
| Database.AsWrittenIsNamed | backend/database.py:65-76 | whenever the as-written section dictionary can be built, it equals the corrected one |
| Database.GetAnalyticsStats | backend/database.py:54-106 | as corrected, each figure is the count the query describes, each named section shows its own count, and recent activity is the shared recent-activity list, windowed and at most ten |
| Database.ViewsBreakdown | backend/database.py:59-76 | total views are page views plus section views, so the section breakdown never exceeds the total |
| Database.UnnamedSectionViewBreaksStats | backend/database.py:65-76 | one unnamed section view makes the as-written statistics fail, while the corrected ones count it in the total only |
| Database.GetPortfolioData | backend/database.py:112-119 | with no document there is no portfolio; a stored document is returned exactly when it parses |
| Database.UpdatePortfolioData | backend/database.py:124-131 | replacing the portfolio always reports success and touches no other collection |
| Database.PortfolioRoundTrip | backend/database.py:112-131 | reading after an upsert returns the portfolio just written, whatever was stored before |
| Database.GetAdminUser | backend/database.py:137-143 | an admin is found exactly when one has that user name, and the one found is the first with it, the one last-login stamping updates |
| Database.FindAdmin | backend/database.py:139 | the lookup by user name is absent exactly when no admin has the name, and otherwise returns the first admin with it |
| Database.FindAdminIndex | backend/database.py:150-151 | the match filter finds the first admin with the user name, or reports that none has it |
| Database.UpdateAdminLastLogin | backend/database.py:148-154 | stamping the last login changes only the first matching admin; an unknown user changes nothing and reports false |
| Database.LastLoginStamped | backend/database.py:137-154 | after a login is stamped, looking the user up finds the same admin with the new login time |
| Server.RequestEvent | backend/server.py:69-73 | an event built for a request carries the stamp's id and time and that request's client address and user agent |
| Server.Record | backend/server.py:74 | recording an event appends it and leaves everything else alone |
| Server.GetCurrentAdmin | backend/server.py:42-46 | the guard admits exactly the tokens that verify, yields their user name, and otherwise answers 401 |
| Server.GetPortfolio | backend/server.py:66-82 | every visit records one page view; the stored portfolio is served, or the mock data when none is stored |
| Server.UpdatePortfolio | backend/server.py:84-92 | an admin's update is then read back unchanged, and messages, events, admins and the résumé are untouched; without a valid token nothing changes and the answer is 401 |
| Server.SubmitContactForm | backend/server.py:95-117 | a form rejected on the body is answered 422 and changes nothing; one whose normalised address the second `EmailStr` pass rejects is answered 500 and changes nothing; otherwise one unread message with the twice-normalised address and the client address is stored and one contact event recorded, and the answer is that message with its address normalised once more, or 500 when that third pass rejects it |
| Server.IdempotentNormaliserStoresOnce | backend/server.py:95-117 | when re-normalising a normalised address changes nothing, the stored and answered message carries the address normalised once, and the stored address is one the check accepts unchanged |
| Server.AnswerMessages | backend/server.py:119 | the response model answers 500 exactly when it rejects one of the listed addresses, and otherwise sends every message rebuilt in place |
| Server.TwoPassListing | backend/server.py:119-126 | a page checked by the database and then by the response model is answered 500 exactly when one of the two passes rejects one of its addresses, and otherwise carries every address normalised twice |
| Server.ListContactMessages | backend/server.py:119-126 | only admins may list messages; a negative skip or limit answers 500; an admin receives 500 exactly when either e-mail pass rejects an address on the database page, and otherwise that page, at most `limit` messages, each with its address normalised twice and every other field unchanged |
| Server.ValidStoredAddressesListed | backend/server.py:119-126 | when every stored address is one the check accepts unchanged, an admin receives exactly the database page |
| Server.ListContactMessagesDefault | backend/server.py:119-126 | without query parameters (skip 0, limit 50) an admin receives 500 exactly when either e-mail pass rejects one of the fifty newest addresses, and otherwise those fifty newest messages, newest first, with addresses normalised twice; when every stored address is accepted unchanged, exactly the fifty newest messages |
| Server.UpdateContactMessageAsWritten | backend/server.py:128-137 | as written, the route answers 404 exactly when the database reports no modification and success otherwise; the state is the database after the update |
| Server.UpdateContactMessageRoute | backend/server.py:128-137 | as corrected, the route answers 404 exactly when no message has the id, and otherwise applies the update |
| Server.RepeatedStatusAnswers404 | backend/server.py:134-136 | re-sending a message's current status answers 404 as written, and success as corrected |
| Server.TrackAnalyticsEvent | backend/server.py:140-151 | tracking always succeeds and records exactly the requested event with the client's address and agent |
| Server.AnalyticsStatsRouteAsWritten | backend/server.py:153-159 | as written, an admin receives 500 when an in-window section view has no section and the statistics otherwise; anyone else receives 401 |
| Server.AnalyticsStatsRoute | backend/server.py:153-159 | as corrected, admins receive the statistics for the window; anyone else receives 401 |
| Server.AnalyticsStatsDefault | backend/server.py:153-159 | without query parameters the window is thirty days |
| Server.SubmissionCountsOnce | backend/server.py:95-117 | a submission that passes both address checks and is stamped in the window adds one to the contact submissions and changes neither views nor downloads |
| Server.PortfolioVisitCountsOnce | backend/server.py:66-74 | a portfolio visit raises total views by exactly one and changes neither downloads nor contact submissions |
| Server.DownloadResume | backend/server.py:162-182 | without a résumé the answer is 404 and nothing is recorded; otherwise the file is served as `Satish_Kumar_Resume.pdf` and one download of section "resume" is recorded |
| Server.UploadResume | backend/server.py:184-197 | an admin's PDF replaces the résumé; any other content type is refused with 400 and changes nothing |
| Server.UploadThenDownload | backend/server.py:162-197 | a download after a successful upload serves exactly the uploaded bytes |
| Server.AdminLoginRoute | backend/server.py:200-216 | a wrong user or password answers 401 and changes nothing; success stamps the last login of the same admin whose password was checked and issues a one-hour bearer token for the user |
| Server.LoginSucceedsIffCredentialsVerify | backend/server.py:203-205 | login succeeds exactly when the user exists and the password verifies |
| Server.VerifyAdminToken | backend/server.py:218-220 | a token is reported valid exactly when it verifies, along with its user name |
| Server.InitializeAdmin | backend/server.py:49-57 | afterwards an `admin` user exists; an existing one is left untouched, otherwise one with the hash of the default password is added (the module defines it, but nothing in it calls it) |
| Server.ProtectedRoutesRejectUnverifiedTokens | backend/server.py:84-92 | every admin-only route, as written, as corrected and with default parameters, answers 401 to an unverified token and changes nothing |
| AdminPanel.Init | frontend/src/components/AdminPanel.jsx:11-21 | the panel starts signed out, on the dashboard tab, with the stored token (or empty), no data and the dashboard spinner set |
| AdminPanel.VerifyRuns | frontend/src/components/AdminPanel.jsx:23-27 | the token effect verifies only a non-empty token |
| AdminPanel.TokenEffectRuns | frontend/src/components/AdminPanel.jsx:23-27 | keyed on `[token]`, the effect verifies again after a render that changed the token to a non-empty one |
| AdminPanel.DashboardLoadRuns | frontend/src/components/AdminPanel.jsx:29-33 | keyed on `[isAuthenticated]`, the dashboard loads after a render that turned the flag true |
| AdminPanel.MountNeverLoadsDashboard | frontend/src/components/AdminPanel.jsx:23-33 | on mount the dashboard load never runs; verification runs exactly when a non-empty token was stored |
| AdminPanel.VerifyTokenReply | frontend/src/components/AdminPanel.jsx:35-48 | a 200 reply signs in; another 2xx changes nothing; a failure clears the stored token and signs out |
| AdminPanel.FailedVerificationSettles | frontend/src/components/AdminPanel.jsx:23-48 | a failed verification signs out, forgets the stored token, triggers neither another verification nor a dashboard load, and shows the login form |
| AdminPanel.CanSubmitLogin | frontend/src/components/AdminPanel.jsx:116-142 | the form submits only with both `required` fields filled and the button not `disabled={loading}` |
| AdminPanel.StartLogin | frontend/src/components/AdminPanel.jsx:50-52 | submitting a submittable login form only sets the busy flag, which disables the button so the form cannot be submitted again |
| AdminPanel.FinishLogin | frontend/src/components/AdminPanel.jsx:54-65 | a successful login stores the new token and signs in, leaving the form, tab and dashboard data as they were; a failed one only clears the busy flag |
| AdminPanel.LoginOutcome | frontend/src/components/AdminPanel.jsx:50-66 | whatever the reply, the busy flag ends cleared; sign-in happens exactly when the login request resolved, and a new non-empty token makes the token effect verify it again |
| AdminPanel.Logout | frontend/src/components/AdminPanel.jsx:68-73 | logout signs out, clears both token copies and the form, and touches nothing else |
| AdminPanel.LogoutIsQuiet | frontend/src/components/AdminPanel.jsx:23-33 | logging out triggers neither token verification nor a dashboard load, and shows the login form |
| AdminPanel.StartDashboardLoad | frontend/src/components/AdminPanel.jsx:75-76 | starting a dashboard load only sets the spinner |
| AdminPanel.FinishDashboardLoad | frontend/src/components/AdminPanel.jsx:75-94 | the spinner ends either way; both results are shown only when both requests resolved, otherwise the previous data stays; nothing else in the panel changes |
| AdminPanel.UpdateMessageStatusReply | frontend/src/components/AdminPanel.jsx:96-106 | the dashboard is reloaded exactly when the status update resolved |
| AdminPanel.OfferedStatus | frontend/src/components/AdminPanel.jsx:323-338 | an unread message offers "read", a read one offers "replied", a replied one offers nothing; each offer is one step forward |
| AdminPanel.OfferedStatusesMoveForward | frontend/src/components/AdminPanel.jsx:323-338 | following the offered buttons never moves a status backwards and reaches "replied" after two clicks at most |
| AdminPanel.FollowFromReplied | frontend/src/components/AdminPanel.jsx:323-338 | a replied message stays replied whatever is clicked |
| AdminPanel.View | frontend/src/components/AdminPanel.jsx:108-350 | the login form shows exactly when signed out, the spinner exactly while signed in and loading; once loaded, the messages tab always shows the held messages and the dashboard and analytics tabs show exactly when analytics are held |
| AdminPanel.SectionViewsCard | frontend/src/components/AdminPanel.jsx:243 | the "Section Views" card is the sum of all section counts, hence at least each one |
| AdminPanel.ReduceSum | frontend/src/components/AdminPanel.jsx:243 | the reduce from a starting value adds the sum of all section counts to it |
| AdminPanel.SectionCardWithinTotal | frontend/src/components/AdminPanel.jsx:212-243 | on backend statistics the "Section Views" card sums the named sections and never exceeds the "Total Views" card |
| DesignSelector.Init | frontend/src/components/DesignSelector.jsx:15-18 | the selector starts on option2 (Creative Tech), not previewing, loading, without data |
| DesignSelector.FindOption | frontend/src/components/DesignSelector.jsx:67 | `find` returns a listed option with the id, and nothing exactly when no option has it |
| DesignSelector.CurrentComponent | frontend/src/components/DesignSelector.jsx:66-69 | the rendered design is the selected option's component, and Creative Tech when the id is unknown |
| DesignSelector.OptionsAreDistinct | frontend/src/components/DesignSelector.jsx:20-49 | there are four design options, with distinct ids |
| DesignSelector.OptionIndex | frontend/src/components/DesignSelector.jsx:20-49 | every design component belongs to some listed option |
| DesignSelector.SelectedOptionRenders | frontend/src/components/DesignSelector.jsx:66-69 | choosing a listed option renders exactly that option's component |
| DesignSelector.UnknownIdFallsBack | frontend/src/components/DesignSelector.jsx:68 | an unlisted id renders Creative Tech |
| DesignSelector.ChooseOption | frontend/src/components/DesignSelector.jsx:101 | a design button selects that option and changes nothing else |
| DesignSelector.ConfirmSelection | frontend/src/components/DesignSelector.jsx:118 | "Select This Design" leaves preview mode, hiding the panel and showing the floating button, and keeps the selection |
| DesignSelector.OpenPreview | frontend/src/components/DesignSelector.jsx:139 | the floating button enters preview mode, showing the panel and hiding the button, and changes nothing else |
| DesignSelector.FetchDone | frontend/src/components/DesignSelector.jsx:55-64 | loading ends after the fetch either way; the data is replaced only on success |
| DesignSelector.Step | frontend/src/components/DesignSelector.jsx:51-139 | one user action or fetch reply: only a design button changes the selection (to that option), only the fetch reply changes the data and spinner, and those two leave preview mode alone |
| DesignSelector.Run | frontend/src/components/DesignSelector.jsx:51-139 | a run of actions without a design button keeps the selection, and one without a fetch reply keeps the data and spinner |
| DesignSelector.SelectionStaysListed | frontend/src/components/DesignSelector.jsx:98-101 | from a listed selection, any sequence of clicks and fetches keeps the selection listed |
| DesignSelector.ReachableSelectionIsListed | frontend/src/components/DesignSelector.jsx:15 | every state reachable from mount has a listed selection, so the fallback never applies |
| DesignSelector.View | frontend/src/components/DesignSelector.jsx:71-155 | the spinner shows exactly while loading; afterwards the selected design renders the data, with the panel exactly in preview mode |
| Sequences.InsertDesc | backend/database.py:27 | inserting into a descending sequence keeps it descending and adds exactly that element |
| Sequences.SortDesc | backend/database.py:27 | `sort(key, -1)` yields a descending permutation of its input |
| Sequences.TiesKeepInputOrder | backend/database.py:27 | two elements with the same key keep their input order |
| Sequences.InsertKeepsTies | backend/database.py:27 | an inserted element goes in front of every element with the same key, and the others with that key keep their order |
| Sequences.SortKeepsTies | backend/database.py:27 | the sort is stable: for every key, the elements with that key come out in their input order |
| Sequences.SubsequencePrefix | backend/utils.py:35 | a prefix of a subsequence is still a subsequence |
| Sequences.SubsequenceLength | backend/utils.py:34 | a subsequence is never longer than its source |
| Sequences.Page | backend/database.py:27-28 | `skip(k).limit(n)` is the run of at most n elements starting at k, empty past the end |
| Sequences.PageFacts | backend/database.py:27-28 | a page draws from its source and keeps its order |
| Sequences.PagesConcatenate | backend/database.py:27-28 | adjacent pages concatenate into the page of their combined size |
| Sequences.PrefixFacts | backend/database.py:81 | `limit(n)` on a sorted cursor keeps the order and draws from the source |

## Left out

- `format_file_size` (`backend/utils.py:37-47`) works on floating-point logarithms and rounding, and no modelled route calls it.
- The root route `GET /api/`, CORS middleware, logging, `.env` loading and the shutdown hook hold no logic beyond a constant reply or configuration.
- The `auth` module is not part of this model. `verify_token`, `verify_password`, `get_password_hash` and `create_access_token` are parameters of the routes that use them.
- Pydantic's `EmailStr` check and Python's Unicode `\w` class are parameters (`normalizeEmail`, `isWord`), because they rely on external grammars. `normalizeEmail` answers either a rejection or the normalised address, and is applied at each of the three points where the contact route validates an address.
- Server.GetPortfolio, Server.UpdatePortfolio, Database.GetPortfolioData, Models.ParsePortfolio: the portfolio's `PersonalInfo.email` is an `EmailStr` (`backend/models.py:66`), checked when the request body is parsed (`backend/server.py:86`), when the stored document is rebuilt (`backend/database.py:118`) and by the response model (`backend/server.py:66`). The model treats it as plain text, so a portfolio whose address the check rejects or rewrites is stored and answered unchanged instead of being refused with a 422 or 500.
- Models.RevalidateMessages: rebuilding a stored message re-checks only its address. Its name, subject and message passed the same length bounds when the message was submitted, and no modelled route changes them.
- Other Pydantic validation (wrong JSON types, an unknown status or event type in a body) is outside the model. Routes receive already-typed values; only the length and e-mail checks of the contact form are modelled, as a 422.
- HTTP header names are compared after lower-casing, as the ASGI server delivers them. Case folding of names sent in other cases is not modelled.
- MongoDB leaves the order of equal timestamps unspecified. The model's sort is stable (`Sequences.SortKeepsTies`), so equal timestamps keep insertion order, one of the orders MongoDB may return; the route contracts promise only descending order.
- A stored portfolio document that fails validation is modelled (`Database.GetPortfolioData` answers `InvalidDocument`, a 500). Lost connections and other driver exceptions are left out; they re-raise and become a 500.
- BSON stores dates in milliseconds, so MongoDB truncates the microseconds of `utcnow()` on insert. The model compares stored timestamps and the cutoff at full microsecond precision. An event in the same millisecond as the cutoff but a few microseconds before it is counted by MongoDB and not by the model.
- `datetime.utcnow() - timedelta(days=days)` can overflow in Python for huge `days`; the model's integer cutoff cannot.
- `HTTPBearer` answers 403 before `get_current_admin` runs when the `Authorization` header is missing, its credential is empty, or its scheme is not `Bearer`. The model treats each of these as a token that does not verify (401).
- The contents of the mock portfolio (`backend/data/mock.py`) are a constant, `Server.MockPortfolio`, with placeholder values.
- Uploaded files are byte sequences held in the state rather than a file on disk. `upload_resume` also returns the client-supplied file name, which the model keeps unsanitized, as the route does.
- Concurrent requests and React's asynchronous state batching are not modelled: each handler is one atomic step on the state it starts from.
- The dashboard's markup, icons and styling, the per-section list rendering and the message-card details are presentation only.

## Findings

| source | as written | input that shows it | evidently intended | confidence | as-written member | corrected member |
|---|---|---|---|---|---|---|
| backend/database.py:34-40 | `update_contact_message` returns `modified_count > 0`, and `server.py:134-136` turns `False` into 404 "Message not found" | PUT `/api/contact/<id>` with `{"status": "unread"}` for an existing unread message (or a second "Mark as Read" click) | success whenever a message with the id exists (`matched_count > 0`); 404 only for an unknown id | not executed | Database.UpdateContactMessage, Server.UpdateContactMessageAsWritten | Database.UpdateContactMessageFound, Server.UpdateContactMessageRoute |
| backend/database.py:65-76 | the `$group` on `$section` yields a `null` key for a section view without a section; `AnalyticsStats.section_views: Dict[str, int]` (`models.py:55`) then fails validation, so `/api/analytics/stats` answers 500 | POST `/api/analytics/track` with `{"event_type": "section_view"}`, then GET `/api/analytics/stats` | statistics are still served; unnamed section views count in the total but not in the per-section breakdown | not executed | Database.GetAnalyticsStatsAsWritten, Server.AnalyticsStatsRouteAsWritten | Database.GetAnalyticsStats, Server.AnalyticsStatsRoute |

=== FILE: admin_panel.dfy ===
/** The admin panel of the frontend (frontend/src/components/AdminPanel.jsx) as a
    state machine. Each handler is split at its `await`: the part before the
    request, and the part that runs when the reply arrives, with the reply as a
    parameter. Browser storage is the `stored` field. */
module AdminPanel {
  import opened Wrappers
  import opened Models
  import Database

  datatype Tab = DashboardTab | MessagesTab | AnalyticsTab

  datatype LoginForm = LoginForm(username: string, password: string)

  const EmptyLoginForm := LoginForm("", "")

  /** The component's state; `stored` is the `adminToken` entry of local storage. */
  datatype Panel = Panel(
    isAuthenticated: bool,
    loginData: LoginForm,
    token: string,
    stored: Option<string>,
    activeTab: Tab,
    loading: bool,
    analytics: Option<AnalyticsStats>,
    contactMessages: seq<ContactMessage>,
    dashboardLoading: bool)

  /** How an HTTP request ended, as the HTTP client reports it: a status code, or
      `None` for a network failure. Any status outside 2xx makes it throw. */
  datatype Reply<T> = Reply(status: Option<int>, data: T)

  predicate Resolved<T>(r: Reply<T>) {
    r.status.Some? && 200 <= r.status.value < 300
  }

  /** The state on mount: the token is whatever storage holds, or empty. */
  function Init(stored: Option<string>): (s: Panel)
    ensures !s.isAuthenticated && !s.loading && s.dashboardLoading
    ensures s.token == stored.GetOr("") && s.stored == stored
    ensures s.loginData == EmptyLoginForm && s.activeTab == DashboardTab
    ensures s.analytics.None? && s.contactMessages == []
  {
    Panel(false, EmptyLoginForm, stored.GetOr(""), stored, DashboardTab, false, None, [], true)
  }

  // ---------------------------------------------------------------------------
  // Effects

  /** The guard of the token effect: verification runs only for a non-empty token. */
  predicate VerifyRuns(s: Panel) {
    s.token != ""
  }

  /** The token effect is keyed on `token`: after mount it runs again whenever a
      render changed the token, and then verifies only a non-empty one. */
  predicate TokenEffectRuns(prev: Panel, next: Panel) {
    prev.token != next.token && VerifyRuns(next)
  }

  /** The effect on `isAuthenticated`: it runs when the flag changed between two
      renders, and loads the dashboard only when the new value is true. */
  predicate DashboardLoadRuns(prev: Panel, next: Panel) {
    prev.isAuthenticated != next.isAuthenticated && next.isAuthenticated
  }

  /** On mount the dashboard is never loaded: the panel starts unauthenticated. */
  lemma MountNeverLoadsDashboard(stored: Option<string>)
    ensures !Init(stored).isAuthenticated
    ensures VerifyRuns(Init(stored)) <==> stored.Some? && stored.value != ""
  {
  }

  // ---------------------------------------------------------------------------
  // Handlers

  /** `verifyToken` once the reply arrives: a 200 authenticates, another 2xx changes
      nothing, and a failure forgets the token everywhere. */
  function VerifyTokenReply(s: Panel, reply: Reply<()>): (r: Panel)
    ensures Resolved(reply) && reply.status == Some(200) ==> r == s.(isAuthenticated := true)
    ensures Resolved(reply) && reply.status != Some(200) ==> r == s
    ensures !Resolved(reply) ==> r == s.(stored := None, token := "", isAuthenticated := false)
  {
    if Resolved(reply) then
      if reply.status == Some(200) then s.(isAuthenticated := true) else s
    else s.(stored := None, token := "", isAuthenticated := false)
  }

  /** A failed verification leaves a session that is unauthenticated, has nothing
      stored, and does not verify again. */
  lemma FailedVerificationSettles(s: Panel, reply: Reply<()>)
    requires !Resolved(reply)
    ensures var r := VerifyTokenReply(s, reply);
            !r.isAuthenticated && r.stored.None? && !VerifyRuns(r) && !DashboardLoadRuns(s, r) && LoginFormShown(r)
  {
  }

  /** The login form submits only when both `required` fields are filled and the
      button is not disabled by a pending login. */
  predicate CanSubmitLogin(s: Panel) {
    s.loginData.username != "" && s.loginData.password != "" && !s.loading
  }

  /** `handleLogin` up to its request. It runs only on a submittable form, and the
      button it disables keeps the form from being submitted a second time. */
  function StartLogin(s: Panel): (r: Panel)
    requires CanSubmitLogin(s)
    ensures r.loading
    ensures !CanSubmitLogin(r)
    ensures r.(loading := s.loading) == s
  {
    s.(loading := true)
  }

  /** `handleLogin` once the reply arrives; `data` is the returned `access_token`. */
  function FinishLogin(s: Panel, reply: Reply<string>): (r: Panel)
    ensures !r.loading
    ensures Resolved(reply) ==> r.isAuthenticated && r.token == reply.data && r.stored == Some(reply.data)
    ensures Resolved(reply) ==> r.(token := s.token, stored := s.stored, isAuthenticated := s.isAuthenticated, loading := s.loading) == s
    ensures !Resolved(reply) ==> r == s.(loading := false)
  {
    if Resolved(reply) then s.(token := reply.data, stored := Some(reply.data), isAuthenticated := true, loading := false)
    else s.(loading := false)
  }

  /** A whole login: success authenticates with the new token in state and storage,
      and a new non-empty token makes the token effect verify it once more; failure
      leaves authentication as it was; both end with `loading` false. */
  lemma LoginOutcome(s: Panel, reply: Reply<string>)
    requires CanSubmitLogin(s)
    ensures var r := FinishLogin(StartLogin(s), reply);
            && !r.loading
            && (Resolved(reply) ==> r.isAuthenticated && r.stored == Some(reply.data) && r.token == reply.data)
            && (!Resolved(reply) ==> r.isAuthenticated == s.isAuthenticated && r.token == s.token && r.stored == s.stored)
            && (Resolved(reply) && !s.isAuthenticated ==> DashboardLoadRuns(s, r))
            && (Resolved(reply) && reply.data != "" && reply.data != s.token ==> TokenEffectRuns(s, r))
  {
  }

  /** `handleLogout`. */
  function Logout(s: Panel): (r: Panel)
    ensures !r.isAuthenticated && r.token == "" && r.stored.None? && r.loginData == EmptyLoginForm
    ensures r.(isAuthenticated := s.isAuthenticated, token := s.token, stored := s.stored, loginData := s.loginData) == s
  {
    s.(stored := None, token := "", isAuthenticated := false, loginData := EmptyLoginForm)
  }

  /** After logout neither effect does anything: no verification, no dashboard load,
      and the login form is shown again. */
  lemma LogoutIsQuiet(s: Panel)
    ensures !VerifyRuns(Logout(s))
    ensures !DashboardLoadRuns(s, Logout(s))
    ensures LoginFormShown(Logout(s))
  {
  }

  /** `loadDashboardData` up to its requests. */
  function StartDashboardLoad(s: Panel): (r: Panel)
    ensures r.dashboardLoading
    ensures r.(dashboardLoading := s.dashboardLoading) == s
  {
    s.(dashboardLoading := true)
  }

  /** `loadDashboardData` once both replies are in: both requests run under one
      `Promise.all`, so either both results are taken or, if either failed, neither. */
  function FinishDashboardLoad(s: Panel, stats: Reply<AnalyticsStats>, messages: Reply<seq<ContactMessage>>): (r: Panel)
    ensures !r.dashboardLoading
    ensures Resolved(stats) && Resolved(messages) ==> r.analytics == Some(stats.data) && r.contactMessages == messages.data
    ensures !(Resolved(stats) && Resolved(messages)) ==> r.analytics == s.analytics && r.contactMessages == s.contactMessages
    ensures r.isAuthenticated == s.isAuthenticated && r.token == s.token && r.stored == s.stored
    ensures r.(analytics := s.analytics, contactMessages := s.contactMessages, dashboardLoading := s.dashboardLoading) == s
  {
    if Resolved(stats) && Resolved(messages) then
      s.(analytics := Some(stats.data), contactMessages := messages.data, dashboardLoading := false)
    else s.(dashboardLoading := false)
  }

  /** What `updateMessageStatus` does after its request: reload or nothing. */
  datatype FollowUp = ReloadDashboard | NoFollowUp

  /** `updateMessageStatus` once the reply arrives: the dashboard is reloaded exactly
      when the update succeeded; the local list is never edited directly. */
  function UpdateMessageStatusReply(reply: Reply<()>): (f: FollowUp)
    ensures f == ReloadDashboard <==> Resolved(reply)
  {
    if Resolved(reply) then ReloadDashboard else NoFollowUp
  }

  // ---------------------------------------------------------------------------
  // Rendering rules

  /** The "Mark as …" button a message offers: unread to read, read to replied,
      nothing once replied. */
  function OfferedStatus(status: MessageStatus): (next: Option<MessageStatus>)
    ensures next.Some? <==> status != Replied
    ensures next.Some? ==> StatusRank(next.value) == StatusRank(status) + 1
  {
    match status
    case Unread => Some(Read)
    case Read => Some(Replied)
    case Replied => None
  }

  /** The position of a status along the workflow. */
  function StatusRank(s: MessageStatus): nat {
    match s
    case Unread => 0
    case Read => 1
    case Replied => 2
  }

  /** Following the offered buttons from any status only moves forward, and ends at
      "replied" after at most two clicks. */
  lemma {:induction false} OfferedStatusesMoveForward(s: MessageStatus, clicks: nat)
    ensures StatusRank(Follow(s, clicks)) >= StatusRank(s)
    ensures StatusRank(Follow(s, clicks)) == if StatusRank(s) + clicks < 2 then StatusRank(s) + clicks else 2
    ensures clicks >= 2 ==> Follow(s, clicks) == Replied
    decreases clicks
  {
    if clicks > 0 && s != Replied {
      OfferedStatusesMoveForward(OfferedStatus(s).value, clicks - 1);
    } else if clicks > 0 {
      FollowFromReplied(clicks);
    }
  }

  lemma {:induction false} FollowFromReplied(clicks: nat)
    ensures Follow(Replied, clicks) == Replied
  {
    if clicks > 0 {
      FollowFromReplied(clicks - 1);
    }
  }

  /** The status after clicking the offered button `clicks` times. */
  function Follow(s: MessageStatus, clicks: nat): MessageStatus
    decreases clicks
  {
    if clicks == 0 then s
    else match OfferedStatus(s)
      case None => s
      case Some(next) => Follow(next, clicks - 1)
  }

  /** The login form is rendered exactly when the session is not authenticated. */
  predicate LoginFormShown(s: Panel) {
    !s.isAuthenticated
  }

  /** What the panel shows. */
  datatype Screen = LoginScreen | Spinner | DashboardScreen(stats: AnalyticsStats) | MessagesScreen(messages: seq<ContactMessage>) | AnalyticsScreen | EmptyScreen

  function View(s: Panel): (v: Screen)
    ensures v == LoginScreen <==> LoginFormShown(s)
    ensures v == Spinner <==> s.isAuthenticated && s.dashboardLoading
    ensures v.DashboardScreen? ==> s.activeTab == DashboardTab && s.analytics == Some(v.stats)
    ensures v.MessagesScreen? ==> s.activeTab == MessagesTab && v.messages == s.contactMessages
    ensures v.AnalyticsScreen? ==> s.activeTab == AnalyticsTab && s.analytics.Some?
    ensures s.isAuthenticated && !s.dashboardLoading && s.activeTab == MessagesTab ==> v == MessagesScreen(s.contactMessages)
    ensures s.isAuthenticated && !s.dashboardLoading && s.activeTab == DashboardTab && s.analytics.Some? ==>
              v == DashboardScreen(s.analytics.value)
    ensures s.isAuthenticated && !s.dashboardLoading && s.activeTab == AnalyticsTab && s.analytics.Some? ==> v == AnalyticsScreen
  {
    if !s.isAuthenticated then LoginScreen
    else if s.dashboardLoading then Spinner
    else match s.activeTab
      case DashboardTab => if s.analytics.Some? then DashboardScreen(s.analytics.value) else EmptyScreen
      case MessagesTab => MessagesScreen(s.contactMessages)
      case AnalyticsTab => if s.analytics.Some? then AnalyticsScreen else EmptyScreen
  }

  /** The "Section Views" card: `Object.values(section_views).reduce((a, b) => a + b, 0)`. */
  function SectionViewsCard(stats: AnalyticsStats): (total: nat)
    ensures total == SectionTotal(stats.sectionViews)
    ensures forall i :: 0 <= i < |stats.sectionViews| ==> stats.sectionViews[i].count <= total
  {
    ReduceSum(stats.sectionViews, 0)
  }

  /** The left fold of the `reduce`, with its accumulator. */
  function ReduceSum(xs: seq<SectionCount>, acc: nat): (r: nat)
    ensures r == acc + SectionTotal(xs)
    ensures forall i :: 0 <= i < |xs| ==> xs[i].count <= r
  {
    if |xs| == 0 then acc
    else ReduceSum(xs[1..], acc + xs[0].count)
  }

  /** On statistics the backend computed, the card shows the in-window section views
      that name a section, which never exceed the "Total Views" card. */
  lemma SectionCardWithinTotal(db: Database.Db, now: int, days: int)
    ensures var stats := Database.GetAnalyticsStats(db, now, days);
            && SectionViewsCard(stats) == SectionTotal(stats.sectionViews)
            && SectionViewsCard(stats) <= stats.totalViews
  {
    Database.ViewsBreakdown(db, now, days);
  }
}

=== FILE: database.dfy ===
/** The persistence layer (backend/database.py), restated over an in-memory
    database: each MongoDB collection is a sequence in insertion order, and each
    query or update is a pure function of the database and its arguments. */
module Database {
  import opened Wrappers
  import opened Sequences
  import opened Models

  /** The four collections; `portfolio` is the single portfolio document, if any. */
  datatype Db = Db(
    messages: seq<ContactMessage>,
    events: seq<AnalyticsEvent>,
    portfolio: Option<PortfolioDocument>,
    admins: seq<AdminUser>)

  const EmptyDb := Db([], [], None, [])

  /** Errors the driver or the record validation raises. */
  datatype DbError = NegativeSkip | NegativeLimit | InvalidDocument

  function Min(a: int, b: int): int { if a <= b then a else b }
  function Max(a: int, b: int): int { if a >= b then a else b }

  // ---------------------------------------------------------------------------
  // Contact messages

  /** `create_contact_message`: inserts the message and hands back exactly it. */
  function CreateContactMessage(db: Db, m: ContactMessage): (r: (Db, ContactMessage))
    ensures r.1 == m
    ensures r.0.messages == db.messages + [m]
    ensures r.0.events == db.events && r.0.portfolio == db.portfolio && r.0.admins == db.admins
  {
    (db.(messages := db.messages + [m]), m)
  }

  function MessageTime(m: ContactMessage): int { m.timestamp }

  /** All messages, newest first (MongoDB leaves ties unordered; here they keep insertion order). */
  function NewestFirst(messages: seq<ContactMessage>): (r: seq<ContactMessage>)
    ensures SortedDesc(r, MessageTime)
    ensures multiset(r) == multiset(messages)
    ensures |r| == |messages|
  {
    SortDesc(messages, MessageTime)
  }

  /** The cursor of `get_contact_messages(skip, limit)`: newest first, the first
      `skip` dropped, at most `limit` returned (a zero `limit` gives nothing, since
      the result list is cut to `limit`); a negative `skip` or `limit` is refused by
      the driver. */
  function MessagePage(db: Db, skip: int, limit: int): (r: Result<seq<ContactMessage>, DbError>)
    ensures r.Err? <==> skip < 0 || limit < 0
    ensures r.Ok? ==> |r.value| == Min(limit, Max(0, |db.messages| - skip))
    ensures r.Ok? ==> SortedDesc(r.value, MessageTime)
    ensures r.Ok? ==> multiset(r.value) <= multiset(db.messages)
  {
    if skip < 0 then Err(NegativeSkip)
    else if limit < 0 then Err(NegativeLimit)
    else
      var sorted := NewestFirst(db.messages);
      PageFacts(sorted, skip, limit, MessageTime);
      var page := Page(sorted, skip, limit);
      assert |page| == Min(limit, Max(0, |db.messages| - skip));
      assert SortedDesc(page, MessageTime);
      assert multiset(page) <= multiset(db.messages);
      Ok(page)
  }

  /** A non-empty page is the run of the newest-first listing that starts right
      after the skipped messages. */
  lemma PageIsRunAfterSkip(db: Db, skip: nat, limit: nat)
    requires skip < |db.messages|
    ensures MessagePage(db, skip, limit).Ok?
    ensures var r := MessagePage(db, skip, limit).value;
            skip + |r| <= |db.messages| && r == NewestFirst(db.messages)[skip..skip + |r|]
  {
  }

  /** Consecutive pages of the message listing tile it: the page after `skip` and
      `a` followed by the next page of `b` is one page of `a + b`. */
  lemma MessagePagesConcatenate(db: Db, skip: nat, a: nat, b: nat)
    ensures MessagePage(db, skip, a).Ok? && MessagePage(db, skip + a, b).Ok?
    ensures MessagePage(db, skip, a).value + MessagePage(db, skip + a, b).value
            == MessagePage(db, skip, a + b).value
  {
    PagesConcatenate(NewestFirst(db.messages), skip, a, b);
  }

  /** `get_contact_messages(skip, limit)`: the cursor's page with every document
      rebuilt as a `ContactMessage`, which checks its address again. An address the
      check now rejects raises a `ValidationError`, which the route answers with a
      500. */
  function GetContactMessages(db: Db, skip: int, limit: int, normalizeEmail: string -> Option<string>): (r: Result<seq<ContactMessage>, DbError>)
    ensures skip < 0 || limit < 0 ==> r.Err?
    ensures MessagePage(db, skip, limit).Ok? ==>
              var page := MessagePage(db, skip, limit).value;
              && (r.Err? <==> exists i :: 0 <= i < |page| && normalizeEmail(page[i].email).None?)
              && (r.Ok? ==> |r.value| == |page|)
              && (r.Ok? ==> forall i :: 0 <= i < |page| ==> RevalidateMessage(page[i], normalizeEmail) == Some(r.value[i]))
    ensures r.Ok? ==> |r.value| == Min(limit, Max(0, |db.messages| - skip))
    ensures r.Ok? ==> SortedDesc(r.value, MessageTime)
  {
    match MessagePage(db, skip, limit)
    case Err(e) => Err(e)
    case Ok(page) =>
      match RevalidateMessages(page, normalizeEmail)
      case None => Err(InvalidDocument)
      case Some(ms) =>
        assert forall i :: 0 <= i < |ms| ==> MessageTime(ms[i]) == MessageTime(page[i]) by {
          forall i | 0 <= i < |ms| ensures MessageTime(ms[i]) == MessageTime(page[i]) {
            assert RevalidateMessage(page[i], normalizeEmail) == Some(ms[i]);
          }
        }
        Ok(ms)
  }

  /** When every stored address is one the check accepts unchanged, reading the
      messages back gives exactly the cursor's page. */
  lemma ValidStoredAddressesReadBack(db: Db, skip: nat, limit: nat, normalizeEmail: string -> Option<string>)
    requires forall m :: m in db.messages ==> normalizeEmail(m.email) == Some(m.email)
    ensures MessagePage(db, skip, limit).Ok?
    ensures GetContactMessages(db, skip, limit, normalizeEmail) == MessagePage(db, skip, limit)
  {
    var page := MessagePage(db, skip, limit).value;
    forall i | 0 <= i < |page| ensures normalizeEmail(page[i].email) == Some(page[i].email) {
      assert page[i] in multiset(page);
    }
    FixedPointsRevalidate(page, normalizeEmail);
  }

  /** The index of the first message with the given id. */
  function FindMessage(messages: seq<ContactMessage>, id: string): (r: Option<nat>)
    ensures r.None? <==> forall i :: 0 <= i < |messages| ==> messages[i].id != id
    ensures r.Some? ==> r.value < |messages| && messages[r.value].id == id
    ensures r.Some? ==> forall i :: 0 <= i < r.value ==> messages[i].id != id
  {
    if |messages| == 0 then None
    else if messages[0].id == id then Some(0)
    else
      var rest := FindMessage(messages[1..], id);
      if rest.Some? then Some(rest.value + 1) else None
  }

  /** What `update_one` reports: documents matched and documents actually changed. */
  datatype UpdateResult = UpdateResult(matchedCount: nat, modifiedCount: nat)

  /** `update_one({"id": id}, {"$set": update})`: the first matching message takes the
      update; MongoDB counts it as modified only when a field really changed. */
  function UpdateOneMessage(db: Db, id: string, u: ContactMessageUpdate): (r: (Db, UpdateResult))
    ensures r.0.events == db.events && r.0.portfolio == db.portfolio && r.0.admins == db.admins
    ensures |r.0.messages| == |db.messages|
    ensures FindMessage(db.messages, id).None? ==> r.0 == db && r.1 == UpdateResult(0, 0)
    ensures FindMessage(db.messages, id).Some? ==>
              var i := FindMessage(db.messages, id).value;
              && r.0.messages[i] == ApplyUpdate(db.messages[i], u)
              && (forall j :: 0 <= j < |db.messages| && j != i ==> r.0.messages[j] == db.messages[j])
              && r.1.matchedCount == 1
              && (r.1.modifiedCount == 1 <==> db.messages[i].status != u.status)
              && r.1.modifiedCount <= 1
  {
    match FindMessage(db.messages, id)
    case None => (db, UpdateResult(0, 0))
    case Some(i) =>
      var m := db.messages[i];
      (db.(messages := db.messages[i := ApplyUpdate(m, u)]),
       UpdateResult(1, if m.status != u.status then 1 else 0))
  }

  /** `update_contact_message` as written: reports `modified_count > 0`, so it says
      false both for an unknown id and for a message that already has the status. */
  function UpdateContactMessage(db: Db, id: string, u: ContactMessageUpdate): (r: (Db, bool))
    ensures r.0 == UpdateOneMessage(db, id, u).0
    ensures r.1 <==> FindMessage(db.messages, id).Some? && db.messages[FindMessage(db.messages, id).value].status != u.status
  {
    var (db', result) := UpdateOneMessage(db, id, u);
    (db', result.modifiedCount > 0)
  }

  /** The corrected report: true exactly when a message has that id. */
  function UpdateContactMessageFound(db: Db, id: string, u: ContactMessageUpdate): (r: (Db, bool))
    ensures r.0 == UpdateOneMessage(db, id, u).0
    ensures r.1 <==> exists i :: 0 <= i < |db.messages| && db.messages[i].id == id
  {
    var (db', result) := UpdateOneMessage(db, id, u);
    (db', result.matchedCount > 0)
  }

  /** Re-sending a message's current status finds the message, changes nothing, and
      yet the as-written report is false. */
  lemma SameStatusUpdateReportsNotModified(db: Db, i: nat)
    requires i < |db.messages|
    requires forall j :: 0 <= j < i ==> db.messages[j].id != db.messages[i].id
    ensures var u := ContactMessageUpdate(db.messages[i].status);
            && UpdateContactMessage(db, db.messages[i].id, u) == (db, false)
            && UpdateContactMessageFound(db, db.messages[i].id, u) == (db, true)
  {
    var m := db.messages[i];
    assert FindMessage(db.messages, m.id) == Some(i);
    assert db.messages[i := ApplyUpdate(m, ContactMessageUpdate(m.status))] == db.messages;
  }

  // ---------------------------------------------------------------------------
  // Analytics

  /** `create_analytics_event`: appends the event and hands it back. */
  function CreateAnalyticsEvent(db: Db, e: AnalyticsEvent): (r: (Db, AnalyticsEvent))
    ensures r.1 == e
    ensures r.0.events == db.events + [e]
    ensures r.0.messages == db.messages && r.0.portfolio == db.portfolio && r.0.admins == db.admins
  {
    (db.(events := db.events + [e]), e)
  }

  const MicrosPerDay := 86_400_000_000

  /** `utcnow() - timedelta(days=days)`, with times in microseconds. */
  function Cutoff(now: int, days: int): int {
    now - days * MicrosPerDay
  }

  /** A MongoDB filter of the form `{"event_type": {"$in": types}, "timestamp": {"$gte": since}}`. */
  datatype EventQuery = EventQuery(types: set<EventType>, since: int)

  predicate Matches(q: EventQuery, e: AnalyticsEvent) {
    e.eventType in q.types && e.timestamp >= q.since
  }

  /** `count_documents(q)` on the events collection. */
  function CountMatching(events: seq<AnalyticsEvent>, q: EventQuery): (n: nat)
    ensures n <= |events|
  {
    if |events| == 0 then 0
    else CountMatching(events[..|events| - 1], q) + (if Matches(q, events[|events| - 1]) then 1 else 0)
  }

  /** A count is zero exactly when no event matches, and the whole collection exactly
      when every event matches. */
  lemma {:induction false} CountExtremes(events: seq<AnalyticsEvent>, q: EventQuery)
    ensures CountMatching(events, q) == 0 <==> forall i :: 0 <= i < |events| ==> !Matches(q, events[i])
    ensures CountMatching(events, q) == |events| <==> forall i :: 0 <= i < |events| ==> Matches(q, events[i])
  {
    if |events| > 0 {
      var init := events[..|events| - 1];
      CountExtremes(init, q);
      assert forall i :: 0 <= i < |init| ==> init[i] == events[i];
    }
  }

  /** `count_documents({"timestamp": {"$gte": since}})` on the messages collection. */
  function CountMessagesSince(messages: seq<ContactMessage>, since: int): (n: nat)
    ensures n <= |messages|
  {
    if |messages| == 0 then 0
    else CountMessagesSince(messages[..|messages| - 1], since) + (if messages[|messages| - 1].timestamp >= since then 1 else 0)
  }

  /** Storing one more message raises the count by one exactly when it is in the window. */
  lemma CountMessagesAppend(messages: seq<ContactMessage>, m: ContactMessage, since: int)
    ensures CountMessagesSince(messages + [m], since) == CountMessagesSince(messages, since) + (if m.timestamp >= since then 1 else 0)
  {
    assert (messages + [m])[..|messages|] == messages;
  }

  /** No submission is counted exactly when every message predates the cutoff, and all
      are counted exactly when none does. */
  lemma {:induction false} MessageCountExtremes(messages: seq<ContactMessage>, since: int)
    ensures CountMessagesSince(messages, since) == 0 <==> forall i :: 0 <= i < |messages| ==> messages[i].timestamp < since
    ensures CountMessagesSince(messages, since) == |messages| <==> forall i :: 0 <= i < |messages| ==> messages[i].timestamp >= since
  {
    if |messages| > 0 {
      var init := messages[..|messages| - 1];
      MessageCountExtremes(init, since);
      assert forall i :: 0 <= i < |init| ==> init[i] == messages[i];
    }
  }

  function ViewQuery(since: int): EventQuery { EventQuery({PageView, SectionView}, since) }
  function SectionViewQuery(since: int): EventQuery { EventQuery({SectionView}, since) }
  function DownloadQuery(since: int): EventQuery { EventQuery({Download}, since) }

  /** Counting with fewer event types never counts more. */
  lemma {:induction false} CountMonotone(events: seq<AnalyticsEvent>, q: EventQuery, q': EventQuery)
    requires q.types <= q'.types && q.since == q'.since
    ensures CountMatching(events, q) <= CountMatching(events, q')
  {
    if |events| > 0 {
      CountMonotone(events[..|events| - 1], q, q');
    }
  }

  /** Counting two disjoint sets of types together is adding their counts. */
  lemma {:induction false} CountDisjointUnion(events: seq<AnalyticsEvent>, a: set<EventType>, b: set<EventType>, since: int)
    requires a !! b
    ensures CountMatching(events, EventQuery(a + b, since))
            == CountMatching(events, EventQuery(a, since)) + CountMatching(events, EventQuery(b, since))
  {
    if |events| > 0 {
      CountDisjointUnion(events[..|events| - 1], a, b, since);
    }
  }

  /** Recording one more event adds one to exactly the counts whose filter it matches. */
  lemma CountAppend(events: seq<AnalyticsEvent>, e: AnalyticsEvent, q: EventQuery)
    ensures CountMatching(events + [e], q) == CountMatching(events, q) + (if Matches(q, e) then 1 else 0)
  {
    assert (events + [e])[..|events|] == events;
  }

  /** One `$group` output document: a section (null when the event had none) and its count. */
  datatype Group = Group(key: Option<string>, count: nat)

  function Keys(groups: seq<Group>): set<Option<string>> {
    if |groups| == 0 then {} else {groups[0].key} + Keys(groups[1..])
  }

  /** No key is grouped twice. */
  predicate DistinctKeys(groups: seq<Group>) {
    |groups| == 0 || (groups[0].key !in Keys(groups[1..]) && DistinctKeys(groups[1..]))
  }

  /** `$group` never emits an empty group. */
  predicate PositiveCounts(groups: seq<Group>) {
    forall i :: 0 <= i < |groups| ==> groups[i].count > 0
  }

  /** The count of the group for `key`, zero when there is none. */
  function GroupCount(groups: seq<Group>, key: Option<string>): nat {
    if |groups| == 0 then 0
    else if groups[0].key == key then groups[0].count
    else GroupCount(groups[1..], key)
  }

  function SumCounts(groups: seq<Group>): nat {
    if |groups| == 0 then 0 else groups[0].count + SumCounts(groups[1..])
  }

  lemma {:induction false} AbsentKeyCountsZero(groups: seq<Group>, key: Option<string>)
    requires key !in Keys(groups)
    ensures GroupCount(groups, key) == 0
  {
    if |groups| > 0 {
      AbsentKeyCountsZero(groups[1..], key);
    }
  }

  /** Adds one event with section `key` to the groups. */
  function AddToGroups(groups: seq<Group>, key: Option<string>): (r: seq<Group>)
    requires DistinctKeys(groups)
    ensures DistinctKeys(r)
    ensures Keys(r) == Keys(groups) + {key}
    ensures GroupCount(r, key) == GroupCount(groups, key) + 1
    ensures forall k :: k != key ==> GroupCount(r, k) == GroupCount(groups, k)
    ensures SumCounts(r) == SumCounts(groups) + 1
    ensures PositiveCounts(groups) ==> PositiveCounts(r)
  {
    if |groups| == 0 then [Group(key, 1)]
    else if groups[0].key == key then
      var r := [groups[0].(count := groups[0].count + 1)] + groups[1..];
      assert r[1..] == groups[1..];
      r
    else
      var rest := AddToGroups(groups[1..], key);
      var r := [groups[0]] + rest;
      assert r[1..] == rest;
      r
  }

  /** In-window section views whose section is `key`: the reference the grouping must agree with. */
  function CountSection(events: seq<AnalyticsEvent>, since: int, key: Option<string>): (n: nat)
    ensures n <= CountMatching(events, SectionViewQuery(since))
  {
    if |events| == 0 then 0
    else
      var e := events[|events| - 1];
      CountSection(events[..|events| - 1], since, key) +
        (if Matches(SectionViewQuery(since), e) && e.section == key then 1 else 0)
  }

  /** The section-views pipeline: `$match` in-window section views, `$group` by section
      (groups in order of first appearance). */
  function GroupSections(events: seq<AnalyticsEvent>, since: int): (r: seq<Group>)
    ensures DistinctKeys(r) && PositiveCounts(r)
    ensures forall k :: GroupCount(r, k) == CountSection(events, since, k)
    ensures SumCounts(r) == CountMatching(events, SectionViewQuery(since))
  {
    if |events| == 0 then []
    else
      var groups := GroupSections(events[..|events| - 1], since);
      var e := events[|events| - 1];
      if Matches(SectionViewQuery(since), e) then AddToGroups(groups, e.section) else groups
  }

  /** Why building `AnalyticsStats` can fail. */
  datatype StatsError = SectionKeyNotString

  /** The `section_views` dictionary as written: a null group key is not a `str`, so
      validating `Dict[str, int]` raises. */
  function SectionViewsAsWritten(groups: seq<Group>): (r: Result<seq<SectionCount>, StatsError>)
    ensures r.Err? <==> None in Keys(groups)
    ensures r.Ok? ==> |r.value| == |groups|
    ensures r.Ok? ==> SectionTotal(r.value) == SumCounts(groups)
    ensures r.Ok? ==> forall sec :: SectionCountOf(r.value, sec) == GroupCount(groups, Some(sec))
  {
    if |groups| == 0 then Ok([])
    else if groups[0].key.None? then Err(SectionKeyNotString)
    else
      match SectionViewsAsWritten(groups[1..])
      case Err(e) => Err(e)
      case Ok(rest) => Ok([SectionCount(groups[0].key.value, groups[0].count)] + rest)
  }

  /** The corrected dictionary: only events that name a section are counted. */
  function NamedSections(groups: seq<Group>): (r: seq<SectionCount>)
    requires DistinctKeys(groups)
    ensures DistinctSections(r)
    ensures forall s :: s in SectionNames(r) <==> Some(s) in Keys(groups)
    ensures forall s :: SectionCountOf(r, s) == GroupCount(groups, Some(s))
    ensures SectionTotal(r) + GroupCount(groups, None) == SumCounts(groups)
  {
    if |groups| == 0 then []
    else
      var rest := NamedSections(groups[1..]);
      AbsentKeyCountsZero(groups[1..], groups[0].key);
      if groups[0].key.None? then rest
      else
        var r := [SectionCount(groups[0].key.value, groups[0].count)] + rest;
        assert r[1..] == rest;
        r
  }

  /** Whenever the as-written dictionary can be built at all, it is the corrected one. */
  lemma {:induction false} AsWrittenIsNamed(groups: seq<Group>)
    requires DistinctKeys(groups)
    ensures SectionViewsAsWritten(groups).Ok? ==> SectionViewsAsWritten(groups).value == NamedSections(groups)
  {
    if |groups| > 0 && groups[0].key.Some? {
      AsWrittenIsNamed(groups[1..]);
    }
  }

  /** With distinct keys and non-empty groups, the null group has a positive count
      exactly when it is listed. */
  lemma {:induction false} NullGroupListed(groups: seq<Group>)
    requires DistinctKeys(groups) && PositiveCounts(groups)
    ensures GroupCount(groups, None) > 0 <==> None in Keys(groups)
  {
    if |groups| > 0 {
      NullGroupListed(groups[1..]);
    }
  }

  function EventTime(e: AnalyticsEvent): int { e.timestamp }

  /** In-window events, in insertion order. */
  function InWindow(events: seq<AnalyticsEvent>, since: int): (r: seq<AnalyticsEvent>)
    ensures forall e :: e in r ==> e.timestamp >= since
    ensures forall i :: 0 <= i < |events| && events[i].timestamp >= since ==> events[i] in r
    ensures multiset(r) <= multiset(events)
  {
    if |events| == 0 then []
    else
      var rest := InWindow(events[..|events| - 1], since);
      var e := events[|events| - 1];
      assert events == events[..|events| - 1] + [e];
      if e.timestamp >= since then rest + [e] else rest
  }

  const RecentActivityLimit := 10

  /** The recent-activity query: in-window events, newest first, at most ten. */
  function RecentEvents(events: seq<AnalyticsEvent>, since: int): (r: seq<AnalyticsEvent>)
    ensures |r| == Min(RecentActivityLimit, |InWindow(events, since)|)
    ensures SortedDesc(r, EventTime)
    ensures forall e :: e in r ==> e.timestamp >= since
    ensures multiset(r) <= multiset(events)
  {
    var w := InWindow(events, since);
    var sorted := SortDesc(w, EventTime);
    var n := Min(RecentActivityLimit, |sorted|);
    PrefixFacts(sorted, n, EventTime);
    var r := sorted[..n];
    assert forall e :: e in r ==> e in multiset(w);
    r
  }

  /** The listed events really are the newest: an in-window event left out is no
      newer than any listed one, and is left out only because ten are listed. */
  lemma RecentEventsAreNewest(events: seq<AnalyticsEvent>, since: int, e: AnalyticsEvent)
    requires e in events && e.timestamp >= since
    ensures var r := RecentEvents(events, since);
            e in r || (|r| == RecentActivityLimit && forall i :: 0 <= i < |r| ==> r[i].timestamp >= e.timestamp)
  {
    var r := RecentEvents(events, since);
    if e !in r {
      var w := InWindow(events, since);
      var sorted := SortDesc(w, EventTime);
      var i :| 0 <= i < |events| && events[i] == e;
      assert e in w;
      assert e in multiset(sorted);
      var k :| 0 <= k < |sorted| && sorted[k] == e;
      assert r == sorted[..Min(RecentActivityLimit, |sorted|)];
      assert k >= RecentActivityLimit;
      assert forall j :: 0 <= j < |r| ==> r[j] == sorted[j];
    }
  }

  function ToActivity(e: AnalyticsEvent): (a: Activity)
    ensures a.eventType == e.eventType && a.section == e.section && a.timestamp == e.timestamp
  {
    Activity(e.eventType, e.section, e.timestamp)
  }

  function ActivitiesOf(es: seq<AnalyticsEvent>): (r: seq<Activity>)
    ensures |r| == |es|
    ensures forall i :: 0 <= i < |es| ==> r[i] == ToActivity(es[i])
  {
    if |es| == 0 then [] else [ToActivity(es[0])] + ActivitiesOf(es[1..])
  }

  /** The two statistics both versions share. */
  function RecentActivity(events: seq<AnalyticsEvent>, since: int): (r: seq<Activity>)
    ensures |r| == Min(RecentActivityLimit, |InWindow(events, since)|)
    ensures forall i :: 0 <= i < |r| ==> r[i].timestamp >= since
    ensures forall i, j :: 0 <= i < j < |r| ==> r[i].timestamp >= r[j].timestamp
  {
    var es := RecentEvents(events, since);
    assert forall i :: 0 <= i < |es| ==> es[i] in es;
    ActivitiesOf(es)
  }

  /** Entry by entry, recent activity is the activity of the recent events. */
  lemma RecentActivityOfRecentEvents(events: seq<AnalyticsEvent>, since: int)
    ensures var r := RecentActivity(events, since);
            |r| == |RecentEvents(events, since)| &&
            forall i :: 0 <= i < |r| ==> r[i] == ToActivity(RecentEvents(events, since)[i])
  {
  }

  /** `get_analytics_stats(days)` as written; it fails when an in-window section view
      has no section. */
  function GetAnalyticsStatsAsWritten(db: Db, now: int, days: int): (r: Result<AnalyticsStats, StatsError>)
    ensures var since := Cutoff(now, days);
            r.Err? <==> CountSection(db.events, since, None) > 0
    ensures r.Ok? ==> SectionTotal(r.value.sectionViews) == CountMatching(db.events, SectionViewQuery(Cutoff(now, days)))
    ensures r.Ok? ==> r.value == GetAnalyticsStats(db, now, days)
  {
    var since := Cutoff(now, days);
    var groups := GroupSections(db.events, since);
    NullGroupListed(groups);
    AsWrittenIsNamed(groups);
    match SectionViewsAsWritten(groups)
    case Err(e) => Err(e)
    case Ok(sections) =>
      Ok(AnalyticsStats(
        CountMatching(db.events, ViewQuery(since)),
        sections,
        RecentActivity(db.events, since),
        CountMessagesSince(db.messages, since),
        CountMatching(db.events, DownloadQuery(since))))
  }

  /** `get_analytics_stats(days)`, corrected to list only named sections. */
  function GetAnalyticsStats(db: Db, now: int, days: int): (s: AnalyticsStats)
    ensures var since := Cutoff(now, days);
            && s.totalViews == CountMatching(db.events, ViewQuery(since))
            && s.downloads == CountMatching(db.events, DownloadQuery(since))
            && s.contactSubmissions == CountMessagesSince(db.messages, since)
            && (forall sec :: SectionCountOf(s.sectionViews, sec) == CountSection(db.events, since, Some(sec)))
            && SectionTotal(s.sectionViews) <= CountMatching(db.events, SectionViewQuery(since))
            && s.recentActivity == RecentActivity(db.events, since)
            && |s.recentActivity| <= RecentActivityLimit
            && (forall i :: 0 <= i < |s.recentActivity| ==> s.recentActivity[i].timestamp >= since)
  {
    var since := Cutoff(now, days);
    var groups := GroupSections(db.events, since);
    AnalyticsStats(
      CountMatching(db.events, ViewQuery(since)),
      NamedSections(groups),
      RecentActivity(db.events, since),
      CountMessagesSince(db.messages, since),
      CountMatching(db.events, DownloadQuery(since)))
  }

  /** Page views and section views together make up the total; so the section
      breakdown never exceeds it. */
  lemma ViewsBreakdown(db: Db, now: int, days: int)
    ensures var since := Cutoff(now, days);
            var s := GetAnalyticsStats(db, now, days);
            && s.totalViews == CountMatching(db.events, EventQuery({PageView}, since)) + CountMatching(db.events, SectionViewQuery(since))
            && SectionTotal(s.sectionViews) <= s.totalViews
  {
    var since := Cutoff(now, days);
    assert {PageView} + {SectionView} == {PageView, SectionView};
    CountDisjointUnion(db.events, {PageView}, {SectionView}, since);
  }

  /** A section view recorded without a section makes the as-written statistics fail,
      while the corrected ones still succeed and leave it out of the breakdown. */
  lemma UnnamedSectionViewBreaksStats(now: int)
    ensures var e := AnalyticsEvent("e1", SectionView, None, now, None, None);
            var db := EmptyDb.(events := [e]);
            && GetAnalyticsStatsAsWritten(db, now, 30).Err?
            && GetAnalyticsStats(db, now, 30).sectionViews == []
            && GetAnalyticsStats(db, now, 30).totalViews == 1
  {
    var e := AnalyticsEvent("e1", SectionView, None, now, None, None);
    var since := Cutoff(now, 30);
    assert [e][..0] == [];
    assert CountSection([e], since, None) == 1;
    assert GroupSections([e], since) == [Group(None, 1)];
    assert NamedSections([Group(None, 1)]) == [];
    assert CountMatching([e], ViewQuery(since)) == 1;
  }

  // ---------------------------------------------------------------------------
  // Portfolio

  /** `get_portfolio_data`: no document gives `None`; a stored one is validated. */
  function GetPortfolioData(db: Db): (r: Result<Option<PortfolioData>, DbError>)
    ensures db.portfolio.None? ==> r == Ok(None)
    ensures db.portfolio.Some? ==> (r.Ok? <==> ParsePortfolio(db.portfolio.value).Some?)
    ensures r.Ok? && db.portfolio.Some? ==> r.value == ParsePortfolio(db.portfolio.value)
  {
    match db.portfolio
    case None => Ok(None)
    case Some(doc) =>
      match ParsePortfolio(doc)
      case None => Err(InvalidDocument)
      case Some(p) => Ok(Some(p))
  }

  /** `update_portfolio_data`: replaces (or creates) the single document; always true. */
  function UpdatePortfolioData(db: Db, p: PortfolioData): (r: (Db, bool))
    ensures r.1
    ensures r.0.messages == db.messages && r.0.events == db.events && r.0.admins == db.admins
  {
    (db.(portfolio := Some(PortfolioToDocument(p))), true)
  }

  /** After storing `p`, reading gives `p` back, whatever was stored before; an
      empty database has no portfolio. */
  lemma PortfolioRoundTrip(db: Db, p: PortfolioData, q: PortfolioData)
    ensures GetPortfolioData(UpdatePortfolioData(db, p).0) == Ok(Some(p))
    ensures GetPortfolioData(UpdatePortfolioData(UpdatePortfolioData(db, q).0, p).0) == Ok(Some(p))
    ensures GetPortfolioData(EmptyDb) == Ok(None)
  {
    PortfolioDocumentRoundTrip(p);
  }

  // ---------------------------------------------------------------------------
  // Admin users

  /** `get_admin_user`: the first admin with that user name. */
  function GetAdminUser(db: Db, username: string): (r: Option<AdminUser>)
    ensures r.None? <==> forall i :: 0 <= i < |db.admins| ==> db.admins[i].username != username
    ensures r.Some? ==> r.value.username == username && r.value in db.admins
    ensures r.Some? ==> FindAdminIndex(db.admins, username).Some? && r.value == db.admins[FindAdminIndex(db.admins, username).value]
  {
    FindAdmin(db.admins, username)
  }

  function FindAdmin(admins: seq<AdminUser>, username: string): (r: Option<AdminUser>)
    ensures r.None? <==> forall i :: 0 <= i < |admins| ==> admins[i].username != username
    ensures r.Some? ==> r.value.username == username && r.value in admins
    ensures r.Some? ==> FindAdminIndex(admins, username).Some? && r.value == admins[FindAdminIndex(admins, username).value]
  {
    if |admins| == 0 then None
    else if admins[0].username == username then Some(admins[0])
    else FindAdmin(admins[1..], username)
  }

  function FindAdminIndex(admins: seq<AdminUser>, username: string): (r: Option<nat>)
    ensures r.None? <==> forall i :: 0 <= i < |admins| ==> admins[i].username != username
    ensures r.Some? ==> r.value < |admins| && admins[r.value].username == username
    ensures r.Some? ==> forall k :: 0 <= k < r.value ==> admins[k].username != username
  {
    if |admins| == 0 then None
    else if admins[0].username == username then Some(0)
    else
      var rest := FindAdminIndex(admins[1..], username);
      if rest.Some? then Some(rest.value + 1) else None
  }

  /** `update_admin_last_login`: stamps the first admin with that name; true when
      the stored value actually changed. */
  function UpdateAdminLastLogin(db: Db, username: string, now: int): (r: (Db, bool))
    ensures r.0.messages == db.messages && r.0.events == db.events && r.0.portfolio == db.portfolio
    ensures |r.0.admins| == |db.admins|
    ensures FindAdminIndex(db.admins, username).None? ==> r == (db, false)
    ensures FindAdminIndex(db.admins, username).Some? ==>
              var i := FindAdminIndex(db.admins, username).value;
              && r.0.admins[i] == db.admins[i].(lastLogin := Some(now))
              && (forall j :: 0 <= j < |db.admins| && j != i ==> r.0.admins[j] == db.admins[j])
              && (r.1 <==> db.admins[i].lastLogin != Some(now))
  {
    match FindAdminIndex(db.admins, username)
    case None => (db, false)
    case Some(i) =>
      var a := db.admins[i];
      (db.(admins := db.admins[i := a.(lastLogin := Some(now))]), a.lastLogin != Some(now))
  }

  /** After a login is stamped, looking the user up again finds the same admin,
      now carrying the new login time. */
  lemma LastLoginStamped(db: Db, username: string, now: int)
    requires GetAdminUser(db, username).Some?
    ensures GetAdminUser(UpdateAdminLastLogin(db, username, now).0, username) == Some(GetAdminUser(db, username).value.(lastLogin := Some(now)))
  {
    var i := FindAdminIndex(db.admins, username).value;
    var admins := UpdateAdminLastLogin(db, username, now).0.admins;
    assert forall k :: 0 <= k < |admins| ==> admins[k].username == db.admins[k].username;
    var j := FindAdminIndex(admins, username).value;
    assert admins[i].username == username;
    assert j <= i;
    assert j == i;
  }
}

=== FILE: design_selector.dfy ===
/** The theme chooser of the frontend (frontend/src/components/DesignSelector.jsx):
    which of the design options renders the portfolio, and the preview panel that
    lets a visitor switch between them. */
module DesignSelector {
  import opened Wrappers
  import opened Models

  /** The portfolio components the selector can render. */
  datatype Theme = Minimalist | CreativeTech | ExecutivePremium | Modern

  datatype DesignOption = DesignOption(id: string, name: string, description: string, color: string, component: Theme)

  const DesignOptions: seq<DesignOption> := [
    DesignOption("option1", "Minimalist Corporate", "Clean, professional, corporate style with elegant typography", "bg-gray-500", Minimalist),
    DesignOption("option2", "Creative Tech", "Bold, modern with tech elements and dynamic interactions", "bg-blue-500", CreativeTech),
    DesignOption("option3", "Executive Premium", "Luxury, sophisticated, high-end business style with dark theme", "bg-amber-500", ExecutivePremium),
    DesignOption("option4", "Modern Portfolio", "Contemporary design with emphasis on projects and achievements", "bg-purple-500", Modern)
  ]

  const DefaultDesign := "option2"

  /** The component's state. */
  datatype Selector = Selector(selected: string, previewMode: bool, portfolio: Option<PortfolioData>, loading: bool)

  /** The state on mount: the Creative Tech design, no preview, data loading. */
  function Init(): (s: Selector)
    ensures s.selected == "option2" && !s.previewMode && s.loading && s.portfolio.None?
  {
    Selector(DefaultDesign, false, None, true)
  }

  /** `designOptions.find(opt => opt.id === id)`: the first option with that id. */
  function FindOption(options: seq<DesignOption>, id: string): (r: Option<DesignOption>)
    ensures r.None? <==> forall i :: 0 <= i < |options| ==> options[i].id != id
    ensures r.Some? ==> r.value in options && r.value.id == id
  {
    if |options| == 0 then None
    else if options[0].id == id then Some(options[0])
    else FindOption(options[1..], id)
  }

  /** `getCurrentComponent`: the selected option's component, Creative Tech when
      the id is unknown. */
  function CurrentComponent(s: Selector): (t: Theme)
    ensures FindOption(DesignOptions, s.selected).Some? ==> t == FindOption(DesignOptions, s.selected).value.component
    ensures FindOption(DesignOptions, s.selected).None? ==> t == CreativeTech
  {
    match FindOption(DesignOptions, s.selected)
    case Some(option) => option.component
    case None => CreativeTech
  }

  /** There are four options with distinct ids. */
  lemma OptionsAreDistinct()
    ensures |DesignOptions| == 4
    ensures forall i, j :: 0 <= i < j < |DesignOptions| ==> DesignOptions[i].id != DesignOptions[j].id
  {
  }

  /** The position of the option that renders a theme. */
  function OptionIndex(t: Theme): (i: nat)
    ensures i < |DesignOptions| && DesignOptions[i].component == t
  {
    match t
    case Minimalist => 0
    case CreativeTech => 1
    case ExecutivePremium => 2
    case Modern => 3
  }

  /** Selecting any listed option renders that option's component, so every theme is
      reachable by its own button. */
  lemma SelectedOptionRenders(i: nat)
    requires i < |DesignOptions|
    ensures CurrentComponent(Selector(DesignOptions[i].id, false, None, false)) == DesignOptions[i].component
  {
    assert FindOption(DesignOptions, DesignOptions[i].id) == Some(DesignOptions[i]) by {
      OptionsAreDistinct();
      if i > 0 { assert DesignOptions[0].id != DesignOptions[i].id; }
      if i > 1 { assert DesignOptions[1].id != DesignOptions[i].id; }
      if i > 2 { assert DesignOptions[2].id != DesignOptions[i].id; }
    }
  }

  /** An id outside the list falls back to Creative Tech. */
  lemma UnknownIdFallsBack(s: Selector)
    requires forall i :: 0 <= i < |DesignOptions| ==> DesignOptions[i].id != s.selected
    ensures CurrentComponent(s) == CreativeTech
  {
  }

  /** A design button in the panel: selects that option and nothing else. */
  function ChooseOption(s: Selector, option: DesignOption): (r: Selector)
    ensures r.selected == option.id
    ensures r.(selected := s.selected) == s
  {
    s.(selected := option.id)
  }

  /** "Select This Design": leaves preview mode and keeps the selection. */
  function ConfirmSelection(s: Selector): (r: Selector)
    ensures !r.previewMode
    ensures FloatingButtonVisible(r) && !PanelVisible(r)
    ensures r.(previewMode := s.previewMode) == s
  {
    s.(previewMode := false)
  }

  /** The floating button: enters preview mode. */
  function OpenPreview(s: Selector): (r: Selector)
    ensures r.previewMode
    ensures PanelVisible(r) && !FloatingButtonVisible(r)
    ensures r.(previewMode := s.previewMode) == s
  {
    s.(previewMode := true)
  }

  /** The selector panel is rendered exactly in preview mode, the floating button exactly outside it. */
  predicate PanelVisible(s: Selector) { s.previewMode }
  predicate FloatingButtonVisible(s: Selector) { !s.previewMode }

  /** `fetchPortfolioData` once the reply arrives: the data is taken on success, and
      loading ends either way. */
  function FetchDone(s: Selector, reply: Option<PortfolioData>): (r: Selector)
    ensures !r.loading
    ensures reply.Some? ==> r.portfolio == reply
    ensures reply.None? ==> r.portfolio == s.portfolio
    ensures r.selected == s.selected && r.previewMode == s.previewMode
  {
    match reply
    case Some(data) => s.(portfolio := Some(data), loading := false)
    case None => s.(loading := false)
  }

  /** The user actions the selector reacts to. */
  datatype Action = Choose(index: nat) | Confirm | Preview | Fetched(reply: Option<PortfolioData>)

  /** Applies one action; a design button exists only for a listed option. */
  function Step(s: Selector, a: Action): (r: Selector)
    ensures !a.Choose? ==> r.selected == s.selected
    ensures a.Choose? && a.index < |DesignOptions| ==> r.selected == DesignOptions[a.index].id
    ensures !a.Fetched? ==> r.portfolio == s.portfolio && r.loading == s.loading
    ensures a.Choose? || a.Fetched? ==> r.previewMode == s.previewMode
  {
    match a
    case Choose(i) => if i < |DesignOptions| then ChooseOption(s, DesignOptions[i]) else s
    case Confirm => ConfirmSelection(s)
    case Preview => OpenPreview(s)
    case Fetched(reply) => FetchDone(s, reply)
  }

  /** Applies the actions in order. Only a design button changes the selection,
      and only the fetch reply changes the data and the spinner. */
  function Run(s: Selector, actions: seq<Action>): (r: Selector)
    ensures (forall i :: 0 <= i < |actions| ==> !actions[i].Choose?) ==> r.selected == s.selected
    ensures (forall i :: 0 <= i < |actions| ==> !actions[i].Fetched?) ==> r.portfolio == s.portfolio && r.loading == s.loading
    decreases |actions|
  {
    if |actions| == 0 then s else Run(Step(s, actions[0]), actions[1..])
  }

  /** Whatever the visitor clicks, the selection stays a listed id, so the
      Creative Tech fallback is never needed in practice. */
  lemma {:induction false} SelectionStaysListed(s: Selector, actions: seq<Action>)
    requires FindOption(DesignOptions, s.selected).Some?
    ensures FindOption(DesignOptions, Run(s, actions).selected).Some?
    decreases |actions|
  {
    if |actions| > 0 {
      var s' := Step(s, actions[0]);
      match actions[0] {
        case Choose(i) =>
          if i < |DesignOptions| {
            assert s'.selected == DesignOptions[i].id;
            assert FindOption(DesignOptions, s'.selected).Some?;
          }
        case _ =>
          assert s'.selected == s.selected;
      }
      SelectionStaysListed(s', actions[1..]);
      assert Run(s, actions) == Run(s', actions[1..]);
    }
  }

  /** Starting from the initial state, every reachable state renders a listed option. */
  lemma ReachableSelectionIsListed(actions: seq<Action>)
    ensures FindOption(DesignOptions, Run(Init(), actions).selected).Some?
  {
    assert FindOption(DesignOptions, DefaultDesign) == Some(DesignOptions[1]);
    SelectionStaysListed(Init(), actions);
  }

  /** What the component renders. */
  datatype Screen = LoadingScreen | PortfolioScreen(theme: Theme, data: Option<PortfolioData>, panel: bool)

  function View(s: Selector): (v: Screen)
    ensures v == LoadingScreen <==> s.loading
    ensures v.PortfolioScreen? ==> v.theme == CurrentComponent(s) && v.panel == PanelVisible(s) && v.data == s.portfolio
  {
    if s.loading then LoadingScreen
    else PortfolioScreen(CurrentComponent(s), s.portfolio, s.previewMode)
  }
}

=== FILE: models.dfy ===
/** The records the backend stores and exchanges (backend/models.py): message
    status and event-type enumerations, contact submissions with their length
    bounds and defaults, analytics events and statistics, the portfolio
    aggregate, and the admin records. */
module Models {
  import opened Wrappers

  // ---------------------------------------------------------------------------
  // Enumerations

  /** `MessageStatus`: where a contact message is in the admin's workflow. */
  datatype MessageStatus = Unread | Read | Replied

  const AllStatuses: seq<MessageStatus> := [Unread, Read, Replied]

  /** The wire value of a status. */
  function StatusName(s: MessageStatus): string {
    match s
    case Unread => "unread"
    case Read => "read"
    case Replied => "replied"
  }

  /** Reads a wire value back; any other text is rejected, as the enum rejects it. */
  function ParseStatus(name: string): (r: Option<MessageStatus>)
    ensures r.Some? ==> StatusName(r.value) == name
  {
    if name == "unread" then Some(Unread)
    else if name == "read" then Some(Read)
    else if name == "replied" then Some(Replied)
    else None
  }

  /** Every status survives a round trip through its wire value, the enumeration
      lists exactly three values, and their wire values are distinct. */
  lemma StatusRoundTrip(s: MessageStatus)
    ensures ParseStatus(StatusName(s)) == Some(s)
    ensures s in AllStatuses && |AllStatuses| == 3
    ensures forall i, j :: 0 <= i < j < |AllStatuses| ==> StatusName(AllStatuses[i]) != StatusName(AllStatuses[j])
  {
  }

  /** `EventType`: the kinds of analytics events the site records. */
  datatype EventType = PageView | SectionView | Download | Contact | ProjectView

  const AllEventTypes: seq<EventType> := [PageView, SectionView, Download, Contact, ProjectView]

  function EventTypeName(t: EventType): string {
    match t
    case PageView => "page_view"
    case SectionView => "section_view"
    case Download => "download"
    case Contact => "contact"
    case ProjectView => "project_view"
  }

  function ParseEventType(name: string): (r: Option<EventType>)
    ensures r.Some? ==> EventTypeName(r.value) == name
  {
    if name == "page_view" then Some(PageView)
    else if name == "section_view" then Some(SectionView)
    else if name == "download" then Some(Download)
    else if name == "contact" then Some(Contact)
    else if name == "project_view" then Some(ProjectView)
    else None
  }

  /** Every event type survives a round trip through its wire value, and the
      enumeration lists exactly five values with distinct wire values. */
  lemma EventTypeRoundTrip(t: EventType)
    ensures ParseEventType(EventTypeName(t)) == Some(t)
    ensures t in AllEventTypes && |AllEventTypes| == 5
    ensures forall i, j :: 0 <= i < j < |AllEventTypes| ==> EventTypeName(AllEventTypes[i]) != EventTypeName(AllEventTypes[j])
  {
  }

  // ---------------------------------------------------------------------------
  // Contact messages

  /** Inclusive bounds on a string field's length in characters. */
  datatype LengthBound = LengthBound(min: nat, max: nat)

  const NameBound := LengthBound(2, 100)
  const SubjectBound := LengthBound(5, 200)
  const MessageBound := LengthBound(10, 2000)

  predicate Within(s: string, b: LengthBound) {
    b.min <= |s| <= b.max
  }

  /** The fields of a submission that validation can reject. */
  datatype Field = NameField | EmailField | SubjectField | MessageField

  /** `ContactMessageCreate`: the body of a contact-form submission. */
  datatype ContactMessageCreate = ContactMessageCreate(name: string, email: string, subject: string, message: string)

  /** A submission the model accepts. `normalizeEmail` stands for the `EmailStr`
      check: it rejects an address (`None`) or answers its normalised form. */
  predicate ValidSubmission(c: ContactMessageCreate, normalizeEmail: string -> Option<string>) {
    Within(c.name, NameBound) && normalizeEmail(c.email).Some? && Within(c.subject, SubjectBound) && Within(c.message, MessageBound)
  }

  /** Validation of a submission: either it is accepted with its address
      normalised and every other field as sent, or every offending field is
      reported, in declaration order. */
  function ValidateSubmission(c: ContactMessageCreate, normalizeEmail: string -> Option<string>): (r: Result<ContactMessageCreate, seq<Field>>)
    ensures r.Ok? <==> ValidSubmission(c, normalizeEmail)
    ensures r.Ok? ==> r.value.name == c.name && r.value.subject == c.subject && r.value.message == c.message
    ensures r.Ok? ==> Some(r.value.email) == normalizeEmail(c.email)
    ensures r.Err? ==> |r.error| > 0
    ensures r.Err? ==> (NameField in r.error <==> !Within(c.name, NameBound))
    ensures r.Err? ==> (EmailField in r.error <==> normalizeEmail(c.email).None?)
    ensures r.Err? ==> (SubjectField in r.error <==> !Within(c.subject, SubjectBound))
    ensures r.Err? ==> (MessageField in r.error <==> !Within(c.message, MessageBound))
  {
    var errors :=
      (if Within(c.name, NameBound) then [] else [NameField]) +
      (if normalizeEmail(c.email).Some? then [] else [EmailField]) +
      (if Within(c.subject, SubjectBound) then [] else [SubjectField]) +
      (if Within(c.message, MessageBound) then [] else [MessageField]);
    if |errors| == 0 then Ok(c.(email := normalizeEmail(c.email).value)) else Err(errors)
  }

  /** The too-short payload of the backend's invalid-form scenario is rejected on
      all three length-bounded fields, whatever the e-mail check says. */
  lemma TooShortSubmissionRejected(normalizeEmail: string -> Option<string>)
    ensures var r := ValidateSubmission(ContactMessageCreate("A", "invalid-email", "Hi", "Short"), normalizeEmail);
            r.Err? && NameField in r.error && SubjectField in r.error && MessageField in r.error
  {
  }

  /** `ContactMessage`: a stored submission. `timestamp` counts microseconds. */
  datatype ContactMessage = ContactMessage(
    id: string,
    name: string,
    email: string,
    subject: string,
    message: string,
    timestamp: int,
    status: MessageStatus,
    ipAddress: Option<string>)

  /** Builds the stored message from a submission; the id and the time are what
      the default factories (`uuid4`, `utcnow`) produced. */
  function NewContactMessage(c: ContactMessageCreate, id: string, now: int, ip: Option<string>): (m: ContactMessage)
    ensures m.status == Unread
    ensures m.name == c.name && m.email == c.email && m.subject == c.subject && m.message == c.message
    ensures m.id == id && m.timestamp == now && m.ipAddress == ip
  {
    ContactMessage(id, c.name, c.email, c.subject, c.message, now, Unread, ip)
  }

  /** `ContactMessage(**doc)` on a message that already exists: the `EmailStr` check
      runs again on its address, and every other field is carried over. */
  function RevalidateMessage(m: ContactMessage, normalizeEmail: string -> Option<string>): (r: Option<ContactMessage>)
    ensures r.None? <==> normalizeEmail(m.email).None?
    ensures r.Some? ==> Some(r.value.email) == normalizeEmail(m.email)
    ensures r.Some? ==> r.value.(email := m.email) == m
  {
    match normalizeEmail(m.email)
    case None => None
    case Some(e) => Some(m.(email := e))
  }

  /** A list of messages rebuilt one by one: one rejected address fails the whole
      list, and otherwise every message is rebuilt in place. */
  function RevalidateMessages(ms: seq<ContactMessage>, normalizeEmail: string -> Option<string>): (r: Option<seq<ContactMessage>>)
    ensures r.None? <==> exists i :: 0 <= i < |ms| && normalizeEmail(ms[i].email).None?
    ensures r.Some? ==> |r.value| == |ms|
    ensures r.Some? ==> forall i :: 0 <= i < |ms| ==> RevalidateMessage(ms[i], normalizeEmail) == Some(r.value[i])
  {
    if |ms| == 0 then Some([])
    else
      match RevalidateMessage(ms[0], normalizeEmail)
      case None => None
      case Some(m) =>
        match RevalidateMessages(ms[1..], normalizeEmail)
        case None => None
        case Some(rest) => Some([m] + rest)
  }

  /** An address after two `EmailStr` passes, the second on the first one's output;
      `None` when either pass rejects it. */
  function CheckTwice(e: string, normalizeEmail: string -> Option<string>): (r: Option<string>)
    ensures r.Some? <==> normalizeEmail(e).Some? && normalizeEmail(normalizeEmail(e).value).Some?
    ensures r.Some? ==> r == normalizeEmail(normalizeEmail(e).value)
  {
    match normalizeEmail(e)
    case None => None
    case Some(once) => normalizeEmail(once)
  }

  /** Rebuilding a rebuilt list checks each address a second time: it fails exactly
      when one of the two passes rejects some address. */
  lemma SecondRevalidation(ms: seq<ContactMessage>, once: seq<ContactMessage>, normalizeEmail: string -> Option<string>)
    requires |once| == |ms|
    requires forall i :: 0 <= i < |ms| ==> RevalidateMessage(ms[i], normalizeEmail) == Some(once[i])
    ensures forall i :: 0 <= i < |ms| ==> normalizeEmail(once[i].email) == CheckTwice(ms[i].email, normalizeEmail)
  {
    forall i | 0 <= i < |ms| ensures normalizeEmail(once[i].email) == CheckTwice(ms[i].email, normalizeEmail) {
      assert RevalidateMessage(ms[i], normalizeEmail) == Some(once[i]);
    }
  }

  /** Messages whose addresses the check already accepts unchanged are rebuilt
      as they are. */
  lemma {:induction false} FixedPointsRevalidate(ms: seq<ContactMessage>, normalizeEmail: string -> Option<string>)
    requires forall i :: 0 <= i < |ms| ==> normalizeEmail(ms[i].email) == Some(ms[i].email)
    ensures RevalidateMessages(ms, normalizeEmail) == Some(ms)
  {
    if |ms| > 0 {
      FixedPointsRevalidate(ms[1..], normalizeEmail);
      assert ms == [ms[0]] + ms[1..];
    }
  }

  /** `ContactMessageUpdate`: the only thing an update may carry is a status. */
  datatype ContactMessageUpdate = ContactMessageUpdate(status: MessageStatus)

  /** The `$set` of an update onto a stored message. */
  function ApplyUpdate(m: ContactMessage, u: ContactMessageUpdate): (r: ContactMessage)
    ensures r.status == u.status
    ensures r.(status := m.status) == m
  {
    m.(status := u.status)
  }

  /** An update changes nothing but the status, applying it twice is applying it
      once, and setting the current status is a no-op. */
  lemma UpdateTouchesOnlyStatus(m: ContactMessage, u: ContactMessageUpdate)
    ensures var r := ApplyUpdate(m, u);
            && r.id == m.id && r.name == m.name && r.email == m.email && r.subject == m.subject
            && r.message == m.message && r.timestamp == m.timestamp && r.ipAddress == m.ipAddress
    ensures ApplyUpdate(ApplyUpdate(m, u), u) == ApplyUpdate(m, u)
    ensures ApplyUpdate(m, u) == m <==> u.status == m.status
  {
  }

  // ---------------------------------------------------------------------------
  // Analytics

  /** `AnalyticsEvent`: one recorded visit, section view, download or contact. */
  datatype AnalyticsEvent = AnalyticsEvent(
    id: string,
    eventType: EventType,
    section: Option<string>,
    timestamp: int,
    ipAddress: Option<string>,
    userAgent: Option<string>)

  /** `AnalyticsEventCreate`: what a client may report; the section is optional. */
  datatype AnalyticsEventCreate = AnalyticsEventCreate(eventType: EventType, section: Option<string>)

  function NewAnalyticsEvent(c: AnalyticsEventCreate, id: string, now: int, ip: Option<string>, agent: Option<string>): (e: AnalyticsEvent)
    ensures e.eventType == c.eventType && e.section == c.section
    ensures e.id == id && e.timestamp == now && e.ipAddress == ip && e.userAgent == agent
  {
    AnalyticsEvent(id, c.eventType, c.section, now, ip, agent)
  }

  /** One entry of `recent_activity`. */
  datatype Activity = Activity(eventType: EventType, section: Option<string>, timestamp: int)

  /** One item of the `section_views` dictionary. */
  datatype SectionCount = SectionCount(section: string, count: nat)

  /** `AnalyticsStats`; `sectionViews` lists the dictionary's items, one per section. */
  datatype AnalyticsStats = AnalyticsStats(
    totalViews: nat,
    sectionViews: seq<SectionCount>,
    recentActivity: seq<Activity>,
    contactSubmissions: nat,
    downloads: nat)

  /** The sections listed. */
  function SectionNames(xs: seq<SectionCount>): set<string> {
    if |xs| == 0 then {} else {xs[0].section} + SectionNames(xs[1..])
  }

  /** No section is listed twice, as in a dictionary. */
  predicate DistinctSections(xs: seq<SectionCount>) {
    |xs| == 0 || (xs[0].section !in SectionNames(xs[1..]) && DistinctSections(xs[1..]))
  }

  /** The count listed for section `s`, zero when it is not listed. */
  function SectionCountOf(xs: seq<SectionCount>, s: string): nat {
    if |xs| == 0 then 0
    else if xs[0].section == s then xs[0].count
    else SectionCountOf(xs[1..], s)
  }

  /** The sum of the dictionary's values. */
  function SectionTotal(xs: seq<SectionCount>): nat {
    if |xs| == 0 then 0 else xs[0].count + SectionTotal(xs[1..])
  }

  // ---------------------------------------------------------------------------
  // Portfolio

  datatype PersonalInfo = PersonalInfo(
    name: string, title: string, tagline: string, location: string,
    email: string, phone: string, linkedin: string, heroImage: string)

  datatype AboutInfo = AboutInfo(title: string, description: string, backgroundImage: string)

  datatype SkillCategory = SkillCategory(category: string, items: seq<string>)

  datatype Experience = Experience(
    title: string, company: string, kind: string, period: string,
    location: string, achievements: seq<string>)

  datatype Project = Project(
    id: int, title: string, description: string, impact: string,
    technologies: seq<string>, image: string, category: string)

  /** `PortfolioData`: the whole content of the public site. */
  datatype PortfolioData = PortfolioData(
    personal: PersonalInfo,
    about: AboutInfo,
    skills: seq<SkillCategory>,
    experience: seq<Experience>,
    projects: seq<Project>)

  /** A stored document before validation: any of the five parts may be missing. */
  datatype PortfolioDocument = PortfolioDocument(
    personal: Option<PersonalInfo>,
    about: Option<AboutInfo>,
    skills: Option<seq<SkillCategory>>,
    experience: Option<seq<Experience>>,
    projects: Option<seq<Project>>)

  /** `PortfolioData(**data)`: succeeds exactly when all five parts are present. */
  function ParsePortfolio(d: PortfolioDocument): (r: Option<PortfolioData>)
    ensures r.Some? <==> d.personal.Some? && d.about.Some? && d.skills.Some? && d.experience.Some? && d.projects.Some?
  {
    if d.personal.Some? && d.about.Some? && d.skills.Some? && d.experience.Some? && d.projects.Some?
    then Some(PortfolioData(d.personal.value, d.about.value, d.skills.value, d.experience.value, d.projects.value))
    else None
  }

  /** `portfolio_data.dict()`: the document a portfolio is stored as. */
  function PortfolioToDocument(p: PortfolioData): PortfolioDocument {
    PortfolioDocument(Some(p.personal), Some(p.about), Some(p.skills), Some(p.experience), Some(p.projects))
  }

  /** Storing a portfolio and reading it back gives the same portfolio. */
  lemma PortfolioDocumentRoundTrip(p: PortfolioData)
    ensures ParsePortfolio(PortfolioToDocument(p)) == Some(p)
  {
  }

  // ---------------------------------------------------------------------------
  // Admin

  datatype AdminUser = AdminUser(
    id: string, username: string, passwordHash: string, createdAt: int, lastLogin: Option<int>)

  datatype AdminLogin = AdminLogin(username: string, password: string)

  const BearerTokenType := "bearer"

  /** `AdminToken`; `tokenType` is always the default. */
  datatype AdminToken = AdminToken(accessToken: string, tokenType: string, expiresIn: int)

  function NewAdminToken(accessToken: string, expiresIn: int): (t: AdminToken)
    ensures t.tokenType == BearerTokenType
    ensures t.accessToken == accessToken && t.expiresIn == expiresIn
  {
    AdminToken(accessToken, BearerTokenType, expiresIn)
  }
}

=== FILE: request_utils.dfy ===
/** Request-metadata and filename helpers of the backend (backend/utils.py):
    choosing the client address from proxy headers, and cleaning an uploaded
    file name before it is stored. */
module RequestUtils {
  import opened Wrappers
  import opened Sequences

  /** One HTTP header as the ASGI server hands it over; names arrive in lower case. */
  datatype Header = Header(name: string, value: string)

  /** The parts of an incoming request the helpers read: the header list and the
      peer address (`request.client`, absent when the server does not know it). */
  datatype Request = Request(headers: seq<Header>, clientHost: Option<string>)

  const ForwardedFor := "x-forwarded-for"
  const RealIp := "x-real-ip"
  const UserAgent := "user-agent"

  /** `request.headers.get(name)`: the value of the first header called `name`. */
  function HeaderGet(headers: seq<Header>, name: string): (r: Option<string>)
    ensures r.None? <==> forall i :: 0 <= i < |headers| ==> headers[i].name != name
    ensures r.Some? ==> r.value == headers[FirstHeader(headers, name)].value
  {
    if |headers| == 0 then None
    else if headers[0].name == name then Some(headers[0].value)
    else HeaderGet(headers[1..], name)
  }

  /** Index of the first header called `name`; used to state which duplicate `HeaderGet` returns. */
  function FirstHeader(headers: seq<Header>, name: string): (i: nat)
    requires exists k :: 0 <= k < |headers| && headers[k].name == name
    ensures i < |headers| && headers[i].name == name
    ensures forall k :: 0 <= k < i ==> headers[k].name != name
  {
    if headers[0].name == name then 0
    else
      var k :| 0 <= k < |headers| && headers[k].name == name;
      assert headers[1..][k - 1].name == name;
      1 + FirstHeader(headers[1..], name)
  }

  /** Python truthiness of an optional header value: present and non-empty. */
  predicate Truthy(v: Option<string>) {
    v.Some? && |v.value| > 0
  }

  /** The characters Python's `str.isspace` accepts, which `str.strip()` removes. */
  predicate IsSpace(c: char) {
    || '\t' <= c <= '\r'
    || '\U{1C}' <= c <= '\U{1F}'
    || c == ' ' || c == '\U{85}' || c == '\U{A0}' || c == '\U{1680}'
    || '\U{2000}' <= c <= '\U{200A}'
    || c == '\U{2028}' || c == '\U{2029}' || c == '\U{202F}' || c == '\U{205F}' || c == '\U{3000}'
  }

  /** `s.split(",")[0]`: everything before the first comma. */
  function FirstEntry(s: string): (r: string)
    ensures ',' !in r
    ensures |r| <= |s| && r == s[..|r|]
    ensures |r| < |s| ==> s[|r|] == ','
  {
    if |s| == 0 || s[0] == ',' then ""
    else [s[0]] + FirstEntry(s[1..])
  }

  /** Removes leading whitespace. */
  function TrimStart(s: string): (r: string)
    ensures |r| <= |s| && r == s[|s| - |r|..]
    ensures forall k :: 0 <= k < |s| - |r| ==> IsSpace(s[k])
    ensures |r| == 0 || !IsSpace(r[0])
  {
    if |s| > 0 && IsSpace(s[0]) then TrimStart(s[1..]) else s
  }

  /** Removes trailing whitespace. */
  function TrimEnd(s: string): (r: string)
    ensures |r| <= |s| && r == s[..|r|]
    ensures forall k :: |r| <= k < |s| ==> IsSpace(s[k])
    ensures |r| == 0 || !IsSpace(r[|r| - 1])
  {
    if |s| > 0 && IsSpace(s[|s| - 1]) then TrimEnd(s[..|s| - 1]) else s
  }

  /** How many leading characters `Strip` drops. */
  function StripStart(s: string): (n: nat)
    ensures n <= |s|
  {
    |s| - |TrimStart(s)|
  }

  /** `s.strip()`: a contiguous slice of `s` whose outside is whitespace only and
      whose two ends are not whitespace. */
  function Strip(s: string): (r: string)
    ensures StripStart(s) + |r| <= |s|
    ensures r == s[StripStart(s)..StripStart(s) + |r|]
    ensures |r| == 0 || (!IsSpace(r[0]) && !IsSpace(r[|r| - 1]))
  {
    var t := TrimStart(s);
    var r := TrimEnd(t);
    assert |r| == 0 || r[0] == t[0];
    r
  }

  /** `Strip` removes whitespace only: everything outside the slice it keeps is
      whitespace. */
  lemma StripRemovesOnlySpace(s: string)
    ensures forall k :: 0 <= k < StripStart(s) ==> IsSpace(s[k])
    ensures forall k :: StripStart(s) + |Strip(s)| <= k < |s| ==> IsSpace(s[k])
  {
    var t := TrimStart(s);
    forall k | StripStart(s) + |Strip(s)| <= k < |s|
      ensures IsSpace(s[k])
    {
      assert s[k] == t[k - StripStart(s)];
    }
  }

  /** Stripping twice is stripping once. */
  lemma StripIdempotent(s: string)
    ensures Strip(Strip(s)) == Strip(s)
  {
    var r := Strip(s);
    assert TrimStart(r) == r;
    assert TrimEnd(r) == r;
  }

  /** `get_client_ip`: the first `X-Forwarded-For` entry (stripped), else
      `X-Real-IP`, else the peer address; an empty header counts as absent. */
  function GetClientIp(req: Request): (r: Option<string>)
    ensures Truthy(HeaderGet(req.headers, ForwardedFor)) ==>
              r == Some(Strip(FirstEntry(HeaderGet(req.headers, ForwardedFor).value)))
    ensures !Truthy(HeaderGet(req.headers, ForwardedFor)) && Truthy(HeaderGet(req.headers, RealIp)) ==>
              r == HeaderGet(req.headers, RealIp)
    ensures !Truthy(HeaderGet(req.headers, ForwardedFor)) && !Truthy(HeaderGet(req.headers, RealIp)) ==>
              r == req.clientHost
  {
    var forwarded := HeaderGet(req.headers, ForwardedFor);
    if Truthy(forwarded) then Some(Strip(FirstEntry(forwarded.value)))
    else
      var realIp := HeaderGet(req.headers, RealIp);
      if Truthy(realIp) then realIp
      else req.clientHost
  }

  /** `get_user_agent`: the first `User-Agent` header, if any. */
  function GetUserAgent(req: Request): (r: Option<string>)
    ensures r.Some? ==> exists i :: 0 <= i < |req.headers| && req.headers[i] == Header(UserAgent, r.value)
    ensures r.None? <==> forall i :: 0 <= i < |req.headers| ==> req.headers[i].name != UserAgent
    ensures r.Some? ==> r.value == req.headers[FirstHeader(req.headers, UserAgent)].value
    ensures r == HeaderGet(req.headers, UserAgent)
  {
    var r := HeaderGet(req.headers, UserAgent);
    if r.Some? then
      var i := FirstHeader(req.headers, UserAgent);
      assert req.headers[i] == Header(UserAgent, r.value);
      r
    else r
  }

  /** `ip` is one address entry of the header value `v`, found at offset `i`: it has
      no comma, does not start or end with whitespace, and is the slice of `v` there. */
  predicate IsEntryOf(v: string, ip: string, i: nat) {
    && ',' !in ip
    && (|ip| == 0 || (!IsSpace(ip[0]) && !IsSpace(ip[|ip| - 1])))
    && i + |ip| <= |v|
    && v[i..i + |ip|] == ip
  }

  /** A forwarded address is a single entry of the header, starting where the
      leading whitespace of the first entry ends. */
  lemma ForwardedAddressIsOneEntry(req: Request)
    requires Truthy(HeaderGet(req.headers, ForwardedFor))
    ensures var v := HeaderGet(req.headers, ForwardedFor).value;
            GetClientIp(req).Some? && IsEntryOf(v, GetClientIp(req).value, StripStart(FirstEntry(v)))
  {
    EntryIsSlice(HeaderGet(req.headers, ForwardedFor).value);
  }

  /** The stripped first entry of `v` is an entry of `v`. */
  lemma EntryIsSlice(v: string)
    ensures IsEntryOf(v, Strip(FirstEntry(v)), StripStart(FirstEntry(v)))
  {
    var e := FirstEntry(v);
    EntryOfPrefix(v, e, Strip(e), StripStart(e));
  }

  /** A non-blank-ended slice of a comma-free prefix of `v` is an entry of `v`. */
  lemma EntryOfPrefix(v: string, e: string, ip: string, i: nat)
    requires |e| <= |v| && e == v[..|e|] && ',' !in e
    requires i + |ip| <= |e| && ip == e[i..i + |ip|]
    requires |ip| == 0 || (!IsSpace(ip[0]) && !IsSpace(ip[|ip| - 1]))
    ensures IsEntryOf(v, ip, i)
  {
    NotInSlice(e, i, i + |ip|, ',');
    PrefixSlice(v, |e|, i, i + |ip|);
  }

  /** A character absent from a string is absent from each of its slices. */
  lemma NotInSlice(s: string, i: nat, j: nat, c: char)
    requires i <= j <= |s| && c !in s
    ensures c !in s[i..j]
  {
    forall k | 0 <= k < j - i
      ensures s[i..j][k] != c
    {
      assert s[i..j][k] == s[i + k];
    }
  }

  /** A slice inside a prefix is the same slice of the whole. */
  lemma PrefixSlice(v: string, n: nat, i: nat, j: nat)
    requires i <= j <= n <= |v|
    ensures v[..n][i..j] == v[i..j]
  {
  }

  /** The address is missing only when all three sources are missing, and a present
      address always comes from one of them. */
  lemma ClientIpSources(req: Request)
    ensures GetClientIp(req).None? <==>
              !Truthy(HeaderGet(req.headers, ForwardedFor)) && !Truthy(HeaderGet(req.headers, RealIp)) && req.clientHost.None?
    ensures GetClientIp(req).Some? ==>
              || Truthy(HeaderGet(req.headers, ForwardedFor))
              || GetClientIp(req) == HeaderGet(req.headers, RealIp)
              || GetClientIp(req) == req.clientHost
  {
  }

  /** A proxy appending its own hop (`", " + hop`) to `X-Forwarded-For` never
      changes the first entry. */
  lemma {:induction false} FirstEntryIgnoresLaterHops(v: string, hop: string)
    ensures FirstEntry(v + "," + hop) == FirstEntry(v)
  {
    if |v| == 0 {
      assert (v + "," + hop)[0] == ',';
    } else if v[0] == ',' {
      assert (v + "," + hop)[0] == ',';
    } else {
      assert (v + "," + hop)[1..] == v[1..] + "," + hop;
      FirstEntryIgnoresLaterHops(v[1..], hop);
    }
  }

  /** Headers equal except for the `X-Forwarded-For` value, which is `v` in `a` and
      `v + "," + hop` in `b`. */
  predicate HopAppended(a: seq<Header>, b: seq<Header>, v: string, hop: string) {
    && |a| == |b|
    && forall i :: 0 <= i < |a| ==>
         if a[i].name == ForwardedFor
         then a[i].value == v && b[i] == Header(ForwardedFor, v + "," + hop)
         else b[i] == a[i]
  }

  /** So a further proxy hop never changes the client address the backend reports. */
  lemma {:induction false} ClientIpStableUnderProxyHop(a: seq<Header>, b: seq<Header>, v: string, hop: string, host: Option<string>)
    requires HopAppended(a, b, v, hop)
    requires HeaderGet(a, ForwardedFor) == Some(v) && |v| > 0
    ensures GetClientIp(Request(b, host)) == GetClientIp(Request(a, host))
  {
    HopAppendedGet(a, b, v, hop);
    FirstEntryIgnoresLaterHops(v, hop);
  }

  lemma {:induction false} HopAppendedGet(a: seq<Header>, b: seq<Header>, v: string, hop: string)
    requires HopAppended(a, b, v, hop)
    requires HeaderGet(a, ForwardedFor).Some?
    ensures HeaderGet(b, ForwardedFor) == Some(v + "," + hop)
  {
    if a[0].name != ForwardedFor {
      assert HopAppended(a[1..], b[1..], v, hop);
      HopAppendedGet(a[1..], b[1..], v, hop);
    }
  }

  /** A blank `X-Forwarded-For` such as `" "` is non-empty, so it wins over
      `X-Real-IP` and yields an empty address rather than falling through. */
  lemma BlankForwardedYieldsEmptyAddress(host: Option<string>)
    ensures GetClientIp(Request([Header(ForwardedFor, " "), Header(RealIp, "10.0.0.1")], host)) == Some("")
  {
    assert FirstEntry(" ") == " ";
    assert TrimStart(" ") == "";
  }

  // ---------------------------------------------------------------------------
  // sanitize_filename

  const MaxFilenameLength := 255

  /** The characters the pattern `[^\w\-_\.]` leaves alone; `isWord` stands for `\w`. */
  predicate IsFilenameChar(c: char, isWord: char -> bool) {
    isWord(c) || c == '-' || c == '_' || c == '.'
  }

  predicate IsCleanFilename(s: string, isWord: char -> bool) {
    forall i :: 0 <= i < |s| ==> IsFilenameChar(s[i], isWord)
  }

  /** The `re.sub` step: deletes every character outside the allowed class. */
  function KeepFilenameChars(s: string, isWord: char -> bool): (r: string)
    ensures IsCleanFilename(r, isWord)
    ensures |r| <= |s|
  {
    if |s| == 0 then ""
    else if IsFilenameChar(s[0], isWord) then [s[0]] + KeepFilenameChars(s[1..], isWord)
    else KeepFilenameChars(s[1..], isWord)
  }

  /** `sanitize_filename`: the allowed characters of `filename`, cut to 255. */
  function SanitizeFilename(filename: string, isWord: char -> bool): (r: string)
    ensures IsCleanFilename(r, isWord)
    ensures |r| <= MaxFilenameLength
  {
    var kept := KeepFilenameChars(filename, isWord);
    if |kept| <= MaxFilenameLength then kept else kept[..MaxFilenameLength]
  }

  /** A clean string passes the filter untouched. */
  lemma {:induction false} KeepCleanUnchanged(s: string, isWord: char -> bool)
    requires IsCleanFilename(s, isWord)
    ensures KeepFilenameChars(s, isWord) == s
  {
    if |s| > 0 {
      KeepCleanUnchanged(s[1..], isWord);
      assert s == [s[0]] + s[1..];
    }
  }

  /** The filter only deletes: its output is a subsequence of its input. */
  lemma {:induction false} KeepIsSubsequence(s: string, isWord: char -> bool)
    ensures IsSubsequence(KeepFilenameChars(s, isWord), s)
  {
    if |s| > 0 {
      KeepIsSubsequence(s[1..], isWord);
    }
  }

  /** The filter keeps exactly the allowed characters: no allowed character is lost. */
  lemma {:induction false} KeepCountsAllowed(s: string, isWord: char -> bool)
    ensures |KeepFilenameChars(s, isWord)| == |s| - CountRejected(s, isWord)
  {
    if |s| > 0 {
      KeepCountsAllowed(s[1..], isWord);
    }
  }

  /** Number of characters of `s` outside the allowed class. */
  function CountRejected(s: string, isWord: char -> bool): (n: nat)
    ensures n <= |s|
    ensures n == 0 <==> IsCleanFilename(s, isWord)
  {
    if |s| == 0 then 0
    else
      var rest := CountRejected(s[1..], isWord);
      assert IsCleanFilename(s, isWord) <==> IsFilenameChar(s[0], isWord) && IsCleanFilename(s[1..], isWord);
      if IsFilenameChar(s[0], isWord) then rest else 1 + rest
  }

  /** The sanitized name keeps the input's order: it is a subsequence of the input,
      and exactly the first `|r|` allowed characters of it. */
  lemma SanitizeIsSubsequence(filename: string, isWord: char -> bool)
    ensures IsSubsequence(SanitizeFilename(filename, isWord), filename)
    ensures var kept := KeepFilenameChars(filename, isWord);
            var r := SanitizeFilename(filename, isWord);
            r == kept[..|r|] && |r| == if |kept| < MaxFilenameLength then |kept| else MaxFilenameLength
  {
    var kept := KeepFilenameChars(filename, isWord);
    KeepIsSubsequence(filename, isWord);
    if |kept| > MaxFilenameLength {
      SubsequencePrefix(kept, filename, MaxFilenameLength);
    } else {
      assert kept[..|kept|] == kept;
    }
  }

  /** A clean name of at most 255 characters is returned unchanged. */
  lemma SanitizeCleanUnchanged(filename: string, isWord: char -> bool)
    requires IsCleanFilename(filename, isWord)
    requires |filename| <= MaxFilenameLength
    ensures SanitizeFilename(filename, isWord) == filename
  {
    KeepCleanUnchanged(filename, isWord);
  }

  /** Sanitizing is idempotent. */
  lemma SanitizeIdempotent(filename: string, isWord: char -> bool)
    ensures SanitizeFilename(SanitizeFilename(filename, isWord), isWord) == SanitizeFilename(filename, isWord)
  {
    SanitizeCleanUnchanged(SanitizeFilename(filename, isWord), isWord);
  }
}

=== FILE: sequences.dfy ===
/** Generic facts about sequences: descending order by a key, sorting,
    and the subsequence relation. */
module Sequences {

  /** `xs` is in non-increasing order of `key` (newest first when `key` is a timestamp). */
  predicate SortedDesc<T>(xs: seq<T>, key: T -> int) {
    forall i, j :: 0 <= i < j < |xs| ==> key(xs[i]) >= key(xs[j])
  }

  /** Inserts `x` into a descending sequence, after every element whose key is
      greater and before every other one. */
  function InsertDesc<T>(x: T, xs: seq<T>, key: T -> int): (r: seq<T>)
    requires SortedDesc(xs, key)
    ensures SortedDesc(r, key)
    ensures multiset(r) == multiset(xs) + multiset{x}
    ensures |r| == |xs| + 1
    ensures r[0] == x || (|xs| > 0 && r[0] == xs[0])
  {
    if |xs| == 0 then [x]
    else if key(x) >= key(xs[0]) then [x] + xs
    else
      assert xs == [xs[0]] + xs[1..];
      [xs[0]] + InsertDesc(x, xs[1..], key)
  }

  /** A descending sort by `key` (insertion sort; equal keys keep their input order). */
  function SortDesc<T>(xs: seq<T>, key: T -> int): (r: seq<T>)
    ensures SortedDesc(r, key)
    ensures multiset(r) == multiset(xs)
    ensures |r| == |xs|
  {
    if |xs| == 0 then []
    else
      assert xs == [xs[0]] + xs[1..];
      InsertDesc(xs[0], SortDesc(xs[1..], key), key)
  }

  /** The elements of `xs` whose key is `k`, in their order in `xs`. */
  function WithKey<T>(xs: seq<T>, key: T -> int, k: int): seq<T> {
    if |xs| == 0 then [] else (if key(xs[0]) == k then [xs[0]] else []) + WithKey(xs[1..], key, k)
  }

  /** `WithKey` of a sequence with a known first element. */
  lemma WithKeyCons<T>(y: T, ys: seq<T>, key: T -> int, k: int)
    ensures WithKey([y] + ys, key, k) == (if key(y) == k then [y] else []) + WithKey(ys, key, k)
  {
    assert ([y] + ys)[1..] == ys;
  }

  /** Inserting `x` puts it in front of every element with the same key. */
  lemma {:induction false} InsertKeepsTies<T>(x: T, xs: seq<T>, key: T -> int, k: int)
    requires SortedDesc(xs, key)
    ensures WithKey(InsertDesc(x, xs, key), key, k) == (if key(x) == k then [x] else []) + WithKey(xs, key, k)
  {
    if |xs| == 0 {
      WithKeyCons(x, [], key, k);
    } else if key(x) >= key(xs[0]) {
      WithKeyCons(x, xs, key, k);
    } else {
      SortedTail(xs, key);
      InsertKeepsTies(x, xs[1..], key, k);
      WithKeyCons(xs[0], InsertDesc(x, xs[1..], key), key, k);
      WithKeyCons(xs[0], xs[1..], key, k);
      assert xs == [xs[0]] + xs[1..];
      SwapSingletons(if key(x) == k then [x] else [], if key(xs[0]) == k then [xs[0]] else [], WithKey(xs[1..], key, k));
    }
  }

  /** The tail of a descending sequence is descending. */
  lemma SortedTail<T>(xs: seq<T>, key: T -> int)
    requires |xs| > 0 && SortedDesc(xs, key)
    ensures SortedDesc(xs[1..], key)
  {
  }

  /** Two pieces of which at least one is empty can be swapped. */
  lemma SwapSingletons<T>(a: seq<T>, b: seq<T>, w: seq<T>)
    requires a == [] || b == []
    ensures b + (a + w) == a + (b + w)
  {
    if a == [] {
      assert b + ([] + w) == b + w;
      assert [] + (b + w) == b + w;
    } else {
      assert b == [];
      assert [] + (a + w) == a + w;
      assert [] + w == w;
    }
  }

  /** The sort is stable: for every key, the elements with that key come out in
      the order they went in. */
  lemma {:induction false} SortKeepsTies<T>(xs: seq<T>, key: T -> int, k: int)
    ensures WithKey(SortDesc(xs, key), key, k) == WithKey(xs, key, k)
  {
    if |xs| > 0 {
      SortKeepsTies(xs[1..], key, k);
      InsertKeepsTies(xs[0], SortDesc(xs[1..], key), key, k);
    }
  }

  /** The smallest instance of stability: two elements with the same key stay in order. */
  lemma TiesKeepInputOrder<T>(a: T, b: T, key: T -> int)
    requires key(a) == key(b)
    ensures SortDesc([a, b], key) == [a, b]
  {
    assert [a, b][1..] == [b];
    assert [b][1..] == [];
  }

  /** `a` can be obtained from `b` by deleting elements, keeping the order of the rest. */
  predicate IsSubsequence<T(==)>(a: seq<T>, b: seq<T>)
    decreases |b|
  {
    |a| == 0 ||
    (|b| > 0 &&
      ((a[0] == b[0] && IsSubsequence(a[1..], b[1..])) || IsSubsequence(a, b[1..])))
  }

  /** Every prefix of a subsequence of `b` is again a subsequence of `b`. */
  lemma {:induction false} SubsequencePrefix<T>(a: seq<T>, b: seq<T>, k: nat)
    requires IsSubsequence(a, b)
    requires k <= |a|
    ensures IsSubsequence(a[..k], b)
    decreases |b|
  {
    if k == 0 || |a| == 0 {
      assert |a[..k]| == 0;
    } else if a[0] == b[0] && IsSubsequence(a[1..], b[1..]) {
      SubsequencePrefix(a[1..], b[1..], k - 1);
      assert a[..k][1..] == a[1..][..k - 1];
    } else {
      SubsequencePrefix(a, b[1..], k);
    }
  }

  /** Elements are only ever dropped: a subsequence is never longer. */
  lemma {:induction false} SubsequenceLength<T>(a: seq<T>, b: seq<T>)
    requires IsSubsequence(a, b)
    ensures |a| <= |b|
    decreases |b|
  {
    if |a| > 0 {
      if a[0] == b[0] && IsSubsequence(a[1..], b[1..]) {
        SubsequenceLength(a[1..], b[1..]);
      } else {
        SubsequenceLength(a, b[1..]);
      }
    }
  }

  /** `skip(k).limit(n)` on a listing: at most `n` elements, starting after the first `k`. */
  function Page<T>(s: seq<T>, skip: nat, limit: nat): (r: seq<T>)
    ensures skip >= |s| ==> r == []
    ensures skip < |s| ==> skip + |r| <= |s| && r == s[skip..skip + |r|]
    ensures |r| == if skip >= |s| then 0 else if limit < |s| - skip then limit else |s| - skip
  {
    if skip >= |s| then []
    else if limit < |s| - skip then s[skip..skip + limit]
    else s[skip..]
  }

  /** A page of a listing keeps the listing's order and holds only its elements. */
  lemma PageFacts<T>(s: seq<T>, skip: nat, limit: nat, key: T -> int)
    ensures multiset(Page(s, skip, limit)) <= multiset(s)
    ensures SortedDesc(s, key) ==> SortedDesc(Page(s, skip, limit), key)
  {
    var r := Page(s, skip, limit);
    if skip < |s| {
      assert s == s[..skip] + r + s[skip + |r|..];
    }
  }

  /** Consecutive pages tile the listing: a page of `a` followed by the next page of
      `b` is the page of `a + b`. */
  lemma PagesConcatenate<T>(s: seq<T>, skip: nat, a: nat, b: nat)
    ensures Page(s, skip, a) + Page(s, skip + a, b) == Page(s, skip, a + b)
  {
    if skip < |s| && skip + a < |s| {
      var n1 := |Page(s, skip, a)|;
      var n3 := |Page(s, skip, a + b)|;
      assert s[skip..skip + n1] + s[skip + a..skip + n3] == s[skip..skip + n3];
    }
  }

  /** The first `n` elements of a descending sequence are descending and are among its elements. */
  lemma PrefixFacts<T>(s: seq<T>, n: nat, key: T -> int)
    requires n <= |s|
    ensures multiset(s[..n]) <= multiset(s)
    ensures SortedDesc(s, key) ==> SortedDesc(s[..n], key)
  {
    assert s == s[..n] + s[n..];
  }
}

=== FILE: server.dfy ===
/** The HTTP routes of the backend (backend/server.py). The database is the
    in-memory `Db`; token verification, password checking, token creation and
    password hashing live in an authentication module that is not part of this
    model, so they are passed in as functions. Each call that records an event
    receives the id and time its default factories would produce as a `Stamp`. */
module Server {
  import opened Wrappers
  import opened Models
  import opened Database
  import opened RequestUtils

  /** The backend's state: the database and the stored résumé file, if any. */
  datatype State = State(db: Db, resume: Option<seq<bv8>>)

  /** A route's answer: a body, or an `HTTPException` status and detail. */
  datatype Response<T> = Success(body: T) | HttpError(status: int, detail: string)

  /** The id and creation time the default factories hand a new record. */
  datatype Stamp = Stamp(id: string, now: int)

  /** An uploaded file as the route sees it. */
  datatype Upload = Upload(contentType: string, filename: string, content: seq<bv8>)

  /** A file handed back for download. */
  datatype FileDownload = FileDownload(content: seq<bv8>, filename: string, mediaType: string)

  const PdfMediaType := "application/pdf"
  const ResumeDownloadName := "Satish_Kumar_Resume.pdf"
  const ResumeSection := "resume"
  const TokenLifetimeSeconds := 60 * 60
  const DefaultAdminName := "admin"
  const DefaultAdminPassword := "admin123"

  /** The query defaults of `GET /contact` and `GET /analytics/stats`. */
  const DefaultSkip := 0
  const DefaultLimit := 50
  const DefaultDays := 30

  /** The bundled fallback portfolio; its contents are static data outside this model. */
  const MockPortfolio := PortfolioData(
    PersonalInfo("Satish Kumar", "", "", "", "", "", "", ""),
    AboutInfo("About Me", "", ""),
    [], [], [])

  /** What an uncaught exception becomes. */
  function InternalError<T>(): Response<T> { HttpError(500, "Internal Server Error") }

  function Unauthorized<T>(): Response<T> { HttpError(401, "Invalid authentication credentials") }

  /** The event a route records for a request. */
  function RequestEvent(t: EventType, section: Option<string>, req: Request, stamp: Stamp): (e: AnalyticsEvent)
    ensures e.id == stamp.id && e.eventType == t && e.section == section && e.timestamp == stamp.now
    ensures e.ipAddress == GetClientIp(req) && e.userAgent == GetUserAgent(req)
  {
    AnalyticsEvent(stamp.id, t, section, stamp.now, GetClientIp(req), GetUserAgent(req))
  }

  /** Appends one event to the state's database. */
  function Record(st: State, e: AnalyticsEvent): (r: State)
    ensures r.db.events == st.db.events + [e]
    ensures r.db.messages == st.db.messages && r.db.portfolio == st.db.portfolio && r.db.admins == st.db.admins
    ensures r.resume == st.resume
  {
    st.(db := CreateAnalyticsEvent(st.db, e).0)
  }

  /** `get_current_admin`: the user name the token verifies to, or 401. */
  function GetCurrentAdmin(token: string, verify: string -> Option<string>): (r: Response<string>)
    ensures r.Success? <==> verify(token).Some?
    ensures r.Success? ==> r.body == verify(token).value
    ensures r.HttpError? ==> r.status == 401
  {
    match verify(token)
    case None => Unauthorized()
    case Some(username) => Success(username)
  }

  // ---------------------------------------------------------------------------
  // Portfolio

  /** `GET /portfolio`: records one page view, then answers the stored portfolio or,
      when none is stored, the fallback. */
  function GetPortfolio(st: State, req: Request, stamp: Stamp): (r: (State, Response<PortfolioData>))
    ensures r.0 == Record(st, RequestEvent(PageView, None, req, stamp))
    ensures GetPortfolioData(st.db) == Ok(None) ==> r.1 == Success(MockPortfolio)
    ensures forall p :: GetPortfolioData(st.db) == Ok(Some(p)) ==> r.1 == Success(p)
    ensures GetPortfolioData(st.db).Err? ==> r.1.HttpError? && r.1.status == 500
  {
    var st' := Record(st, RequestEvent(PageView, None, req, stamp));
    match GetPortfolioData(st'.db)
    case Err(_) => (st', InternalError())
    case Ok(None) => (st', Success(MockPortfolio))
    case Ok(Some(p)) => (st', Success(p))
  }

  /** `PUT /portfolio`: an admin replaces the stored portfolio. */
  function UpdatePortfolio(st: State, token: string, verify: string -> Option<string>, p: PortfolioData): (r: (State, Response<string>))
    ensures verify(token).None? ==> r == (st, Unauthorized())
    ensures verify(token).Some? ==> r.1.Success? && GetPortfolioData(r.0.db) == Ok(Some(p))
    ensures r.0.db.messages == st.db.messages && r.0.db.events == st.db.events && r.0.db.admins == st.db.admins
    ensures r.0.resume == st.resume
  {
    match GetCurrentAdmin(token, verify)
    case HttpError(s, d) => (st, HttpError(s, d))
    case Success(_) =>
      var (db', ok) := UpdatePortfolioData(st.db, p);
      PortfolioRoundTrip(st.db, p, p);
      if !ok then (st.(db := db'), HttpError(500, "Failed to update portfolio data"))
      else (st.(db := db'), Success("Portfolio data updated successfully"))
  }

  // ---------------------------------------------------------------------------
  // Contact

  /** `POST /contact`. `EmailStr` runs three times: on the request body, again when
      the stored `ContactMessage` is built from the validated fields, and once more
      when the answer is checked against the response model. A rejected body is
      answered 422 and changes nothing. A rejection in the second pass is an
      uncaught `ValidationError` (500) before anything is stored. Otherwise one
      unread message with the twice-normalised address and the client address is
      stored and exactly one contact event is recorded; a rejection in the third
      pass still answers 500, after the writes. */
  function SubmitContactForm(st: State, form: ContactMessageCreate, normalizeEmail: string -> Option<string>, req: Request, message: Stamp, event: Stamp): (r: (State, Response<ContactMessage>))
    ensures !ValidSubmission(form, normalizeEmail) ==> r.0 == st && r.1.HttpError? && r.1.status == 422
    ensures ValidSubmission(form, normalizeEmail) && normalizeEmail(normalizeEmail(form.email).value).None? ==>
              r == (st, InternalError())
    ensures ValidSubmission(form, normalizeEmail) && normalizeEmail(normalizeEmail(form.email).value).Some? ==>
              var m := NewContactMessage(form.(email := normalizeEmail(normalizeEmail(form.email).value).value), message.id, message.now, GetClientIp(req));
              && r.0.db.messages == st.db.messages + [m]
              && r.0.db.events == st.db.events + [RequestEvent(Contact, None, req, event)]
              && r.0.db.portfolio == st.db.portfolio && r.0.db.admins == st.db.admins && r.0.resume == st.resume
              && (normalizeEmail(m.email).None? ==> r.1 == InternalError())
              && (normalizeEmail(m.email).Some? ==> r.1 == Success(m.(email := normalizeEmail(m.email).value)))
  {
    match ValidateSubmission(form, normalizeEmail)
    case Err(_) => (st, HttpError(422, "Unprocessable Entity"))
    case Ok(c) =>
      match normalizeEmail(c.email)
      case None => (st, InternalError())
      case Some(stored) =>
        var (db1, created) := CreateContactMessage(st.db, NewContactMessage(c.(email := stored), message.id, message.now, GetClientIp(req)));
        var st' := Record(st.(db := db1), RequestEvent(Contact, None, req, event));
        match normalizeEmail(created.email)
        case None => (st', InternalError())
        case Some(answered) => (st', Success(created.(email := answered)))
  }

  /** When normalising an already normalised address changes nothing, the three
      passes agree: the message stored and answered carries the address normalised
      once, and that address is one the check accepts unchanged, so the listing
      passes accept it too (`ValidStoredAddressesListed`). */
  lemma IdempotentNormaliserStoresOnce(st: State, form: ContactMessageCreate, normalizeEmail: string -> Option<string>, req: Request, message: Stamp, event: Stamp)
    requires ValidSubmission(form, normalizeEmail)
    requires forall e :: normalizeEmail(e).Some? ==> normalizeEmail(normalizeEmail(e).value) == normalizeEmail(e)
    ensures var m := NewContactMessage(form.(email := normalizeEmail(form.email).value), message.id, message.now, GetClientIp(req));
            var r := SubmitContactForm(st, form, normalizeEmail, req, message, event);
            r.1 == Success(m) && r.0.db.messages == st.db.messages + [m]
    ensures var stored := SubmitContactForm(st, form, normalizeEmail, req, message, event).0.db.messages[|st.db.messages|];
            normalizeEmail(stored.email) == Some(stored.email)
  {
    var n := normalizeEmail(form.email).value;
    assert normalizeEmail(n) == Some(n);
  }

  /** `response_model=List[ContactMessage]`: the listed messages are checked once
      more before they are sent. */
  function AnswerMessages(ms: seq<ContactMessage>, normalizeEmail: string -> Option<string>): (r: Response<seq<ContactMessage>>)
    ensures r.HttpError? <==> exists i :: 0 <= i < |ms| && normalizeEmail(ms[i].email).None?
    ensures r.HttpError? ==> r == InternalError()
    ensures r.Success? ==> |r.body| == |ms|
    ensures r.Success? ==> forall i :: 0 <= i < |ms| ==> RevalidateMessage(ms[i], normalizeEmail) == Some(r.body[i])
  {
    match RevalidateMessages(ms, normalizeEmail)
    case None => InternalError()
    case Some(answered) => Success(answered)
  }

  /** The route's answer for what the database listed: its failure is a 500, and a
      listing goes through the response model. */
  function ListedAnswer(listed: Result<seq<ContactMessage>, DbError>, normalizeEmail: string -> Option<string>): Response<seq<ContactMessage>> {
    match listed
    case Err(_) => InternalError()
    case Ok(ms) => AnswerMessages(ms, normalizeEmail)
  }

  /** A page rebuilt by the database and then by the response model fails exactly
      when one of the two passes rejects one of its addresses, and otherwise carries
      every address normalised twice. */
  lemma TwoPassListing(page: seq<ContactMessage>, listed: Result<seq<ContactMessage>, DbError>, normalizeEmail: string -> Option<string>)
    requires listed.Err? <==> exists i :: 0 <= i < |page| && normalizeEmail(page[i].email).None?
    requires listed.Ok? ==> |listed.value| == |page|
    requires listed.Ok? ==> forall i :: 0 <= i < |page| ==> RevalidateMessage(page[i], normalizeEmail) == Some(listed.value[i])
    ensures var r := ListedAnswer(listed, normalizeEmail);
            && (r.HttpError? <==>
                  exists i :: 0 <= i < |page| && CheckTwice(page[i].email, normalizeEmail).None?)
            && (r.HttpError? ==> r == InternalError())
            && (r.Success? ==> |r.body| == |page|)
            && (r.Success? ==>
                  forall i :: 0 <= i < |page| ==>
                    Some(r.body[i].email) == CheckTwice(page[i].email, normalizeEmail) && r.body[i].(email := page[i].email) == page[i])
  {
    if listed.Ok? {
      SecondRevalidation(page, listed.value, normalizeEmail);
    }
  }

  /** `GET /contact`: an admin lists messages, newest first. Each address is checked
      twice: when the database rebuilds the stored documents, and again when the
      answer is checked against `response_model=List[ContactMessage]`. A rejection in
      either pass is an uncaught `ValidationError` (500). */
  function ListContactMessages(st: State, token: string, verify: string -> Option<string>, normalizeEmail: string -> Option<string>, skip: int, limit: int): (r: Response<seq<ContactMessage>>)
    ensures verify(token).None? ==> r == Unauthorized()
    ensures verify(token).Some? && (skip < 0 || limit < 0) ==> r == InternalError()
    ensures verify(token).Some? && skip >= 0 && limit >= 0 ==>
              var page := MessagePage(st.db, skip, limit).value;
              && (r.HttpError? <==>
                    exists i :: 0 <= i < |page| && CheckTwice(page[i].email, normalizeEmail).None?)
              && (r.Success? ==> |r.body| == |page|)
              && (r.Success? ==>
                    forall i :: 0 <= i < |page| ==>
                      Some(r.body[i].email) == CheckTwice(page[i].email, normalizeEmail) && r.body[i].(email := page[i].email) == page[i])
    ensures verify(token).Some? && r.HttpError? ==> r == InternalError()
    ensures r.Success? ==> |r.body| <= limit
  {
    match GetCurrentAdmin(token, verify)
    case HttpError(s, d) => HttpError(s, d)
    case Success(_) =>
      var listed := GetContactMessages(st.db, skip, limit, normalizeEmail);
      if skip >= 0 && limit >= 0 then
        TwoPassListing(MessagePage(st.db, skip, limit).value, listed, normalizeEmail);
        ListedAnswer(listed, normalizeEmail)
      else ListedAnswer(listed, normalizeEmail)
  }

  /** When every stored address is one the check accepts unchanged, an admin
      receives exactly the database page. */
  lemma ValidStoredAddressesListed(st: State, token: string, verify: string -> Option<string>, normalizeEmail: string -> Option<string>, skip: nat, limit: nat)
    requires verify(token).Some?
    requires forall m :: m in st.db.messages ==> normalizeEmail(m.email) == Some(m.email)
    ensures MessagePage(st.db, skip, limit).Ok?
    ensures ListContactMessages(st, token, verify, normalizeEmail, skip, limit) == Success(MessagePage(st.db, skip, limit).value)
  {
    ValidStoredAddressesReadBack(st.db, skip, limit, normalizeEmail);
    var page := MessagePage(st.db, skip, limit).value;
    forall i | 0 <= i < |page| ensures normalizeEmail(page[i].email) == Some(page[i].email) {
      assert page[i] in multiset(page);
    }
    FixedPointsRevalidate(page, normalizeEmail);
  }

  /** `GET /contact` without query parameters: the fifty newest messages, each
      checked twice as above. */
  function ListContactMessagesDefault(st: State, token: string, verify: string -> Option<string>, normalizeEmail: string -> Option<string>): (r: Response<seq<ContactMessage>>)
    ensures verify(token).None? ==> r == Unauthorized()
    ensures verify(token).Some? ==>
              var newest := NewestFirst(st.db.messages)[..Min(DefaultLimit, |st.db.messages|)];
              && (r == InternalError() <==>
                    exists i :: 0 <= i < |newest| && CheckTwice(newest[i].email, normalizeEmail).None?)
              && (r.Success? ==> |r.body| == |newest|)
              && (r.Success? ==>
                    forall i :: 0 <= i < |newest| ==>
                      Some(r.body[i].email) == CheckTwice(newest[i].email, normalizeEmail) && r.body[i].(email := newest[i].email) == newest[i])
    ensures verify(token).Some? && (forall m :: m in st.db.messages ==> normalizeEmail(m.email) == Some(m.email)) ==>
              r == Success(NewestFirst(st.db.messages)[..Min(DefaultLimit, |st.db.messages|)])
  {
    var newest := NewestFirst(st.db.messages)[..Min(DefaultLimit, |st.db.messages|)];
    assert MessagePage(st.db, DefaultSkip, DefaultLimit) == Ok(newest) by {
      if |st.db.messages| > 0 {
        PageIsRunAfterSkip(st.db, DefaultSkip, DefaultLimit);
      }
    }
    var r := ListContactMessages(st, token, verify, normalizeEmail, DefaultSkip, DefaultLimit);
    if verify(token).Some? && (forall m :: m in st.db.messages ==> normalizeEmail(m.email) == Some(m.email)) then
      ValidStoredAddressesListed(st, token, verify, normalizeEmail, DefaultSkip, DefaultLimit);
      r
    else r
  }

  /** `PUT /contact/{id}` as written: 404 whenever the database reports no modification. */
  function UpdateContactMessageAsWritten(st: State, token: string, verify: string -> Option<string>, id: string, u: ContactMessageUpdate): (r: (State, Response<string>))
    ensures verify(token).None? ==> r == (st, Unauthorized())
    ensures verify(token).Some? ==> (r.1 == HttpError(404, "Message not found") <==> !UpdateContactMessage(st.db, id, u).1)
    ensures verify(token).Some? ==> r.0 == st.(db := UpdateContactMessage(st.db, id, u).0)
    ensures verify(token).Some? && UpdateContactMessage(st.db, id, u).1 ==> r.1 == Success("Message updated successfully")
  {
    match GetCurrentAdmin(token, verify)
    case HttpError(s, d) => (st, HttpError(s, d))
    case Success(_) =>
      var (db', ok) := UpdateContactMessage(st.db, id, u);
      if !ok then (st.(db := db'), HttpError(404, "Message not found"))
      else (st.(db := db'), Success("Message updated successfully"))
  }

  /** `PUT /contact/{id}`, corrected: 404 exactly when no message has that id;
      otherwise that message, and only its status, takes the update. */
  function UpdateContactMessageRoute(st: State, token: string, verify: string -> Option<string>, id: string, u: ContactMessageUpdate): (r: (State, Response<string>))
    ensures verify(token).None? ==> r == (st, Unauthorized())
    ensures verify(token).Some? ==>
              (r.1 == HttpError(404, "Message not found") <==> forall i :: 0 <= i < |st.db.messages| ==> st.db.messages[i].id != id)
    ensures verify(token).Some? ==> r.0.db == UpdateOneMessage(st.db, id, u).0
    ensures r.0.resume == st.resume
  {
    match GetCurrentAdmin(token, verify)
    case HttpError(s, d) => (st, HttpError(s, d))
    case Success(_) =>
      var (db', found) := UpdateContactMessageFound(st.db, id, u);
      if !found then (st.(db := db'), HttpError(404, "Message not found"))
      else (st.(db := db'), Success("Message updated successfully"))
  }

  /** Marking a message with the status it already has (a repeated click) is
      answered "Message not found" as written, although the message exists. */
  lemma RepeatedStatusAnswers404(m: ContactMessage, token: string, verify: string -> Option<string>)
    requires verify(token).Some?
    ensures var st := State(EmptyDb.(messages := [m]), None);
            var u := ContactMessageUpdate(m.status);
            && UpdateContactMessageAsWritten(st, token, verify, m.id, u).1 == HttpError(404, "Message not found")
            && UpdateContactMessageRoute(st, token, verify, m.id, u).1 == Success("Message updated successfully")
  {
    SameStatusUpdateReportsNotModified(EmptyDb.(messages := [m]), 0);
  }

  // ---------------------------------------------------------------------------
  // Analytics

  /** `POST /analytics/track`: records exactly the reported event. */
  function TrackAnalyticsEvent(st: State, c: AnalyticsEventCreate, req: Request, stamp: Stamp): (r: (State, Response<string>))
    ensures r.0 == Record(st, RequestEvent(c.eventType, c.section, req, stamp))
    ensures r.1.Success?
  {
    (Record(st, NewAnalyticsEvent(c, stamp.id, stamp.now, GetClientIp(req), GetUserAgent(req))), Success("Event tracked successfully"))
  }

  /** `GET /analytics/stats` as written: the failing statistics query is an uncaught
      exception, so the admin gets 500 instead of the statistics. */
  function AnalyticsStatsRouteAsWritten(st: State, token: string, verify: string -> Option<string>, now: int, days: int): (r: Response<AnalyticsStats>)
    ensures verify(token).None? ==> r == Unauthorized()
    ensures verify(token).Some? && CountSection(st.db.events, Cutoff(now, days), None) > 0 ==> r == InternalError()
    ensures verify(token).Some? && CountSection(st.db.events, Cutoff(now, days), None) == 0 ==>
              r == Success(GetAnalyticsStats(st.db, now, days))
  {
    match GetCurrentAdmin(token, verify)
    case HttpError(s, d) => HttpError(s, d)
    case Success(_) =>
      match GetAnalyticsStatsAsWritten(st.db, now, days)
      case Err(_) => InternalError()
      case Ok(stats) => Success(stats)
  }

  /** `GET /analytics/stats`, corrected: an admin reads the statistics of the last `days` days. */
  function AnalyticsStatsRoute(st: State, token: string, verify: string -> Option<string>, now: int, days: int): (r: Response<AnalyticsStats>)
    ensures verify(token).None? ==> r == Unauthorized()
    ensures verify(token).Some? ==> r == Success(GetAnalyticsStats(st.db, now, days))
  {
    match GetCurrentAdmin(token, verify)
    case HttpError(s, d) => HttpError(s, d)
    case Success(_) => Success(GetAnalyticsStats(st.db, now, days))
  }

  /** `GET /analytics/stats` without query parameters: the last thirty days. */
  function AnalyticsStatsDefault(st: State, token: string, verify: string -> Option<string>, now: int): (r: Response<AnalyticsStats>)
    ensures verify(token).None? ==> r == Unauthorized()
    ensures verify(token).Some? ==> r.Success? && r.body.totalViews == CountMatching(st.db.events, ViewQuery(now - 30 * MicrosPerDay))
    ensures verify(token).Some? ==> r == Success(GetAnalyticsStats(st.db, now, DefaultDays))
  {
    AnalyticsStatsRoute(st, token, verify, now, DefaultDays)
  }

  /** A submission that passes both validations and is stamped inside the window adds exactly one to the contact
      submissions and changes neither views nor downloads. */
  lemma SubmissionCountsOnce(st: State, form: ContactMessageCreate, normalizeEmail: string -> Option<string>, req: Request, message: Stamp, event: Stamp, now: int, days: int)
    requires ValidSubmission(form, normalizeEmail) && normalizeEmail(normalizeEmail(form.email).value).Some?
    requires message.now >= Cutoff(now, days)
    ensures var before := GetAnalyticsStats(st.db, now, days);
            var after := GetAnalyticsStats(SubmitContactForm(st, form, normalizeEmail, req, message, event).0.db, now, days);
            && after.contactSubmissions == before.contactSubmissions + 1
            && after.totalViews == before.totalViews
            && after.downloads == before.downloads
  {
    var since := Cutoff(now, days);
    var m := NewContactMessage(form.(email := normalizeEmail(normalizeEmail(form.email).value).value), message.id, message.now, GetClientIp(req));
    var e := RequestEvent(Contact, None, req, event);
    CountMessagesAppend(st.db.messages, m, since);
    CountAppend(st.db.events, e, ViewQuery(since));
    CountAppend(st.db.events, e, DownloadQuery(since));
  }

  /** A page visit inside the window adds exactly one to the total views and
      changes neither downloads nor contact submissions. */
  lemma PortfolioVisitCountsOnce(st: State, req: Request, stamp: Stamp, days: int)
    requires stamp.now >= Cutoff(stamp.now, days)
    ensures var before := GetAnalyticsStats(st.db, stamp.now, days);
            var after := GetAnalyticsStats(GetPortfolio(st, req, stamp).0.db, stamp.now, days);
            && after.totalViews == before.totalViews + 1
            && after.downloads == before.downloads
            && after.contactSubmissions == before.contactSubmissions
  {
    var since := Cutoff(stamp.now, days);
    var e := RequestEvent(PageView, None, req, stamp);
    CountAppend(st.db.events, e, ViewQuery(since));
    CountAppend(st.db.events, e, DownloadQuery(since));
  }

  // ---------------------------------------------------------------------------
  // Résumé

  /** `GET /resume/download`: 404 without a stored résumé; otherwise the file, and
      exactly one download event for the section "resume". */
  function DownloadResume(st: State, req: Request, stamp: Stamp): (r: (State, Response<FileDownload>))
    ensures st.resume.None? ==> r == (st, HttpError(404, "Resume not found"))
    ensures st.resume.Some? ==>
              && r.0 == Record(st, RequestEvent(Download, Some(ResumeSection), req, stamp))
              && r.1 == Success(FileDownload(st.resume.value, ResumeDownloadName, PdfMediaType))
  {
    match st.resume
    case None => (st, HttpError(404, "Resume not found"))
    case Some(content) =>
      (Record(st, RequestEvent(Download, Some(ResumeSection), req, stamp)),
       Success(FileDownload(content, ResumeDownloadName, PdfMediaType)))
  }

  /** `POST /resume/upload`: an admin replaces the résumé; anything but a PDF is
      refused with 400 and changes nothing. */
  function UploadResume(st: State, token: string, verify: string -> Option<string>, file: Upload): (r: (State, Response<string>))
    ensures verify(token).None? ==> r == (st, Unauthorized())
    ensures verify(token).Some? && file.contentType != PdfMediaType ==> r == (st, HttpError(400, "Only PDF files are allowed"))
    ensures verify(token).Some? && file.contentType == PdfMediaType ==>
              r == (st.(resume := Some(file.content)), Success(file.filename))
  {
    match GetCurrentAdmin(token, verify)
    case HttpError(s, d) => (st, HttpError(s, d))
    case Success(_) =>
      if file.contentType != PdfMediaType then (st, HttpError(400, "Only PDF files are allowed"))
      else (st.(resume := Some(file.content)), Success(file.filename))
  }

  /** Downloading after a successful upload hands back exactly the uploaded bytes. */
  lemma UploadThenDownload(st: State, token: string, verify: string -> Option<string>, file: Upload, req: Request, stamp: Stamp)
    requires verify(token).Some? && file.contentType == PdfMediaType
    ensures var st' := UploadResume(st, token, verify, file).0;
            DownloadResume(st', req, stamp).1 == Success(FileDownload(file.content, ResumeDownloadName, PdfMediaType))
  {
  }

  // ---------------------------------------------------------------------------
  // Admin

  /** `POST /admin/login`: 401 unless the user exists and the password verifies;
      otherwise the last login is stamped and a bearer token valid for an hour is
      issued for that user. */
  function AdminLoginRoute(st: State, login: AdminLogin, verifyPassword: (string, string) -> bool, createToken: string -> string, now: int): (r: (State, Response<AdminToken>))
    ensures var admin := GetAdminUser(st.db, login.username);
            admin.None? || !verifyPassword(login.password, admin.value.passwordHash) ==>
              r == (st, HttpError(401, "Invalid username or password"))
    ensures r.1.Success? ==>
              && r.1.body.expiresIn == TokenLifetimeSeconds
              && r.1.body.tokenType == BearerTokenType
              && r.1.body.accessToken == createToken(login.username)
              && r.0.db == UpdateAdminLastLogin(st.db, login.username, now).0
    ensures r.1.Success? ==>
              GetAdminUser(r.0.db, login.username) == Some(GetAdminUser(st.db, login.username).value.(lastLogin := Some(now)))
  {
    match GetAdminUser(st.db, login.username)
    case None => (st, HttpError(401, "Invalid username or password"))
    case Some(admin) =>
      if !verifyPassword(login.password, admin.passwordHash) then (st, HttpError(401, "Invalid username or password"))
      else
        var (db', _) := UpdateAdminLastLogin(st.db, login.username, now);
        LastLoginStamped(st.db, login.username, now);
        (st.(db := db'), Success(NewAdminToken(createToken(admin.username), TokenLifetimeSeconds)))
  }

  /** A login succeeds exactly when the user exists and the password verifies. */
  lemma LoginSucceedsIffCredentialsVerify(st: State, login: AdminLogin, verifyPassword: (string, string) -> bool, createToken: string -> string, now: int)
    ensures var admin := GetAdminUser(st.db, login.username);
            AdminLoginRoute(st, login, verifyPassword, createToken, now).1.Success? <==>
              admin.Some? && verifyPassword(login.password, admin.value.passwordHash)
  {
  }

  /** `GET /admin/verify`: the user name of a valid token. */
  function VerifyAdminToken(token: string, verify: string -> Option<string>): (r: Response<string>)
    ensures r.Success? <==> verify(token).Some?
    ensures r.Success? ==> r.body == verify(token).value
  {
    GetCurrentAdmin(token, verify)
  }

  /** `initialize_admin`: creates the default admin when no user of that name exists. */
  function InitializeAdmin(st: State, hash: string -> string, stamp: Stamp): (r: State)
    ensures GetAdminUser(r.db, DefaultAdminName).Some?
    ensures GetAdminUser(st.db, DefaultAdminName).Some? ==> r == st
    ensures GetAdminUser(st.db, DefaultAdminName).None? ==>
              r.db.admins == st.db.admins + [AdminUser(stamp.id, DefaultAdminName, hash(DefaultAdminPassword), stamp.now, None)]
  {
    if GetAdminUser(st.db, DefaultAdminName).Some? then st
    else
      var a := AdminUser(stamp.id, DefaultAdminName, hash(DefaultAdminPassword), stamp.now, None);
      var r := st.(db := st.db.(admins := st.db.admins + [a]));
      assert r.db.admins[|st.db.admins|] == a;
      r
  }

  /** Every admin-only route answers 401 to a token that does not verify, and
      leaves the state as it was. */
  lemma ProtectedRoutesRejectUnverifiedTokens(
    st: State, token: string, verify: string -> Option<string>,
    p: PortfolioData, id: string, u: ContactMessageUpdate, normalizeEmail: string -> Option<string>,
    skip: int, limit: int, now: int, days: int, file: Upload)
    requires verify(token).None?
    ensures UpdatePortfolio(st, token, verify, p) == (st, Unauthorized())
    ensures ListContactMessages(st, token, verify, normalizeEmail, skip, limit) == Unauthorized()
    ensures UpdateContactMessageRoute(st, token, verify, id, u) == (st, Unauthorized())
    ensures AnalyticsStatsRoute(st, token, verify, now, days) == Unauthorized()
    ensures UploadResume(st, token, verify, file) == (st, Unauthorized())
    ensures VerifyAdminToken(token, verify).HttpError? && VerifyAdminToken(token, verify).status == 401
    ensures ListContactMessagesDefault(st, token, verify, normalizeEmail) == Unauthorized()
    ensures UpdateContactMessageAsWritten(st, token, verify, id, u) == (st, Unauthorized())
    ensures AnalyticsStatsRouteAsWritten(st, token, verify, now, days) == Unauthorized()
    ensures AnalyticsStatsDefault(st, token, verify, now) == Unauthorized()
  {
  }
}

=== FILE: wrappers.dfy ===
/** Optional values and success/failure results shared by every module of the model. */
module Wrappers {

  /** Python's `Optional[...]`: a value or `None`. */
  datatype Option<T> = None | Some(value: T) {

    /** The wrapped value, or `default` when there is none. */
    function GetOr(default: T): T {
      match this
      case Some(v) => v
      case None => default
    }
  }

  /** A value, or the error that was raised instead of producing it. */
  datatype Result<T, E> = Ok(value: T) | Err(error: E)
}
